=== FILE: README.md ===
# VendorBridge authentication core in Dafny

This project models the credential store of the VendorBridge backend and the
decisions made on top of it.

The store holds two collections of account documents, vendors and suppliers. The
legacy User collection is used only by the token middleware.

Modelled:

- **Schemas.** The field rules, setters, pre-save hooks, `comparePassword`,
  `toJSON` and `findByEmail` of the three schemas (`Vendor.js`,
  `models/Supplier.js`, `models/User.js`). They share one `Account` datatype
  with a per-role `Profile`.
- **Main router** (`routes/auth.js`): the validators, `generateToken`, and the
  `/signup`, `/signin` and first `/users` handlers.
- **Middleware** (`middleware/auth.js`): the bearer-token check
  `authenticateToken` and `authorizeRole`.
- **Demo server** (`working-server.js`): its own looser schemas and its own
  sign-up, sign-in and `/users` handlers.

A handler is a pure function from the request, the database and an environment
to a reply and a new database. The environment holds three readings of the
clock (`Date.now()` in milliseconds: when the document is constructed, when the
pre-save hook sets `updatedAt`, and when `jwt.sign` stamps the token), the salt
the next hash draws and the token keys. `Crash` stands
for a handler that throws inside its own `catch` block and so never answers.

How the libraries are modelled:

- **bcrypt.** A digest records the cost, the salt and the first 72 characters of
  the password.
- **jsonwebtoken.** A token is the decimal signature, the issue time, the expiry
  and the user id, separated by dots. The signature is computed by a MAC that is
  a parameter of the keys. An empty secret makes signing fail and verification
  reject.
- **Strings.** A character is a Unicode scalar value. JavaScript's `length`,
  which the schemas' `minlength` and `maxlength` use, counts UTF-16 code units,
  so a character outside the Basic Multilingual Plane counts twice
  (`Text.Utf16Length`). The `isLength` validator counts surrogate pairs once and
  does not count the variation selectors U+FE0E and U+FE0F
  (`Text.ValidatorLength`).
- **express-validator.** `trim` and `normalizeEmail` are modelled as white-space
  trimming and ASCII lower-casing. `isEmail` is replaced by a shape check: one
  `@` after a non-empty local part, and a dotted host name after it.
- **The schemas' email pattern** (`^\w+([.-]?\w+)*@\w+([.-]?\w+)*(\.\w{2,3})+$`)
  is modelled exactly. So are the phone and GSTIN patterns.

Modules, one per file: `Common`, `Text`, `Patterns`, `Bcrypt`, `Jwt`,
`Accounts`, `Store`, `Ordering`, `Http`, `Routes`, `Middleware`, `DemoServer`.

## Model

| member | source | states |
|---|---|---|
| Text.TrimIdempotent | routes/auth.js:18-21 | trimming an already trimmed name changes nothing, so the validator's `trim` and the schema's `trim` store the same name |
| Text.TrimToLowerCommute | Vendor.js:12-17 | the `lowercase` and `trim` setters of `email` commute: the stored address does not depend on the order Mongoose applies them |
| Text.Utf16LengthPairs | Vendor.js:9-10 | a string's UTF-16 length is its character count plus one for each character outside the Basic Multilingual Plane |
| Text.ValidatorLength | routes/auth.js:20 | the length `isLength` checks is the character count less the variation selectors, and never exceeds the UTF-16 length |
| Text.PlainLengths | routes/auth.js:30 | for text without variation selectors or characters outside the Basic Multilingual Plane, the validator's length, the UTF-16 length and the character count agree |
| Text.DecimalRoundTrip | middleware/auth.js:24 | an id written into a token reads back as the same id when the middleware looks it up |
| Patterns.PhoneShape | Vendor.js:23-31 | an accepted phone number is 1 to 17 characters: an optional leading `+`, then digits; it holds no white space, so `trim` leaves it as it is |
| Patterns.GstShape | Vendor.js:48-55 | an accepted GSTIN has exactly 15 characters, all upper-case letters or digits, with `Z` at the 14th position |
| Patterns.SchemaEmailShape | Vendor.js:18-21 | an address the schema pattern accepts has no white space and exactly one `@`, with characters on both sides |
| Bcrypt.Hash | Vendor.js:81 | a hash uses cost 12 and the drawn salt, and it verifies the hashed password |
| Bcrypt.VerifyHash | Vendor.js:96-102 | a digest accepts exactly the candidates that agree with the hashed password on its first 72 characters, whatever the salt |
| Bcrypt.VerifyHashShort | models/Supplier.js:96-103 | for passwords of at most 72 characters, only the hashed password itself is accepted |
| Bcrypt.HashIfModified | Vendor.js:75-87 | the hook leaves a stored digest untouched; it replaces a newly assigned plaintext by a cost-12 digest that verifies that plaintext |
| Bcrypt.HashIfModifiedIdempotent | models/User.js:66-78 | saving a second time never re-hashes the password |
| Jwt.Issue | routes/auth.js:10-14 | a token is produced exactly when a secret is configured |
| Jwt.Verify | middleware/auth.js:21 | a malformed token, a missing secret and a signature that is not the MAC of the signed text are invalid; only a correctly signed token can be expired, exactly when its expiry second has been reached; otherwise it is valid with its own claims |
| Jwt.ForgedTokenInvalid | middleware/auth.js:21 | a token whose signature is not the MAC of its claims is invalid, whatever its expiry |
| Jwt.DecodeEncode | middleware/auth.js:21 | decoding an encoded token gives back its claims, its signature and the signed text |
| Jwt.IssueThenVerify | routes/auth.js:10-14 | an issued token verifies to the user id it was issued for, with `exp = iat + 7 days`, until that moment; after it, it is reported as expired |
| Jwt.SevenDayWindow | routes/auth.js:12 | a token is accepted 6 days after issue and rejected as expired 8 days after |
| Jwt.VerifiedUserIsIssuedUser | middleware/auth.js:21-24 | a token that verifies names the user it was issued to |
| Accounts.ParseRole | routes/auth.js:32-34 | only `vendor` and `supplier` are roles; a parsed role prints back as the given text |
| Accounts.DefaultProfile | models/Supplier.js:43-64 | a new vendor or supplier is unverified; a new supplier has type `other` |
| Accounts.Cast | Vendor.js:5-31 | a stored email is the trimmed lower-cased input and is lower case; name and phone are trimmed; the profile keeps its role; id, password, status and timestamps are untouched |
| Accounts.CastIdempotent | Vendor.js:8-26 | assigning a stored value again changes nothing: the setters are idempotent |
| Accounts.NewAccount | Vendor.js:56-71 | a new document is active, with `createdAt = updatedAt =` the construction reading of the clock and the plaintext password still to hash, and it is a fixed point of the setters |
| Accounts.SchemaErrors | Vendor.js:4-72 | a save's validation error names exactly the paths whose validator fails; it is empty exactly when the document is valid |
| Accounts.ToJson | Vendor.js:104-109 | `toJSON` drops only the password: putting the password back gives the document again |
| Accounts.ToJsonHidesPassword | models/Supplier.js:105-110 | documents that differ only in their password serialise identically |
| Accounts.ComparePassword | models/User.js:80-87 | `comparePassword` is true exactly when the stored value is a digest that verifies the candidate |
| Store.FindByEmail | Vendor.js:111-114 | the lookup finds a document exactly when one stores the lower-cased query |
| Store.FindByEmailAnyCase | models/Supplier.js:112-115 | a stored document is found by its own email written in any letter case |
| Store.Prepare | Vendor.js:74-93 | the pre-save hooks hash a modified password, keep a stored digest, set `updatedAt` to the hook's reading of the clock and change nothing else |
| Store.PrepareKeepsValid | models/User.js:59-78 | the hooks never make a valid document invalid |
| Store.Insert | Vendor.js:4-93 | an insert fails validation exactly when the document is invalid, hits the unique index exactly when an email or id is taken, and otherwise appends the prepared document |
| Store.InsertKeepsWellFormed | Vendor.js:15 | after an insert, emails and ids stay unique and every password stays hashed |
| Store.FindAfterInsert | models/Supplier.js:112-115 | after an insert, the new email finds the new document and every other email finds what it found before |
| Store.Update | Vendor.js:75-93 | saving a loaded document succeeds exactly when it is valid, its id is present and no other document holds its email or id; a valid present document fails with a duplicate key exactly when such a clash exists; a success replaces it in place |
| Store.UpdateKeepsWellFormed | models/Supplier.js:12-15 | a successful update keeps emails and ids unique and passwords hashed |
| Store.UpdatePasswordHandling | Vendor.js:75-87 | a save that did not reassign the password keeps the digest bit for bit, so the old password still signs in; a reassigned one is hashed and the new password signs in |
| Ordering.SortDesc | routes/auth.js:211-212 | the sort is a permutation of its input, newest first, and stable: the elements with any one key appear in their input order |
| Routes.ValidateSignup | routes/auth.js:17-35 | the sign-up validators report exactly the fields whose check fails, with name and password lengths counted as `isLength` counts them |
| Routes.SelectorPasswordRefused | routes/auth.js:29-31 | the password `abcde` followed by U+FE0F is refused with 400 although its `length` is 6 |
| Routes.ValidateSignin | routes/auth.js:37-45 | the sign-in validators report exactly the fields whose check fails |
| Routes.ValidatedIsSanitised | routes/auth.js:17-35 | a body that passes validation leaves a trimmed name whose `isLength` length is 2 to 50, a lower-case email without white space, a valid phone, a password whose `isLength` length is 6 or more and a valid role |
| Routes.DraftShape | routes/auth.js:76-82 | the new document holds the sanitised name, email and phone, the plaintext password and the role's default profile; profile fields in the body are dropped |
| Routes.DraftFitsSchema | routes/auth.js:76-84 | every schema validator accepts a validated draft except possibly the stricter schema email pattern and the name's `maxlength` in UTF-16 units; the draft is valid exactly when those two hold |
| Routes.SignupFlow | routes/auth.js:50-60 | a body that fails validation gets 400 with the failing fields, and nothing is written |
| Routes.Register | routes/auth.js:64-108 | a 400, a 409 and a handler that never answers all leave the database unchanged |
| Routes.Persist | routes/auth.js:84-122 | only a save that went through changes the collection; 201 means it went through and a secret was configured |
| Routes.SignupKeepsValid | routes/auth.js:50-129 | every sign-up, interleaved or not, keeps both collections well formed, with lower-case emails and ids unique across the database |
| Routes.SignupRejectsDuplicate | routes/auth.js:67-74 | an email the chosen collection already holds, in any letter case, gets 409 with the capitalised role in the message, and nothing is written |
| Routes.SignupIgnoresOtherCollection | routes/auth.js:64-68 | the sign-up answer does not depend on the other role's collection |
| Routes.SignupSucceedsIff | routes/auth.js:50-96 | a sign-up answers 201 exactly when the body validates, the chosen collection lacks the email, the normalised email fits the schema pattern, the trimmed name is at most 50 UTF-16 units and a secret is configured |
| Routes.SignupSuccess | routes/auth.js:76-84 | a successful sign-up appends exactly one document to the chosen collection: the id is the next id; it holds the trimmed name, the normalised email, a hash of the password, the default profile, and active status; `createdAt` is the construction reading of the clock and `updatedAt` the hook's reading; the other collection is unchanged |
| Routes.SignupReply | routes/auth.js:86-96 | the 201 reply holds the new document without its password and with no role tag, plus a token stamped with the signing reading of the clock that verifies to its id for 7 days |
| Routes.SequentialSignupAgrees | routes/auth.js:98-108 | with no concurrent save, the handler as written and the corrected handler behave identically |
| Routes.SignupRaceFinding | routes/auth.js:102-107 | when another request saves the same email between the check and the save, the handler as written never answers, while the corrected handler answers 409 and writes nothing |
| Routes.Lookup | routes/auth.js:149-155 | sign-in resolves an email in the vendor collection first, and in the supplier collection only when no vendor holds it |
| Routes.Signin | routes/auth.js:134-203 | sign-in answers 200, 400, 401 or 500 and never writes; it answers 400 "Validation failed" with the failing fields exactly when the body fails validation, and 500 "Internal server error" exactly when an active account's password matches but no secret is configured; a 200 carries the role the account was found under |
| Routes.SigninSucceedsIff | routes/auth.js:157-191 | sign-in answers 200 exactly when the body validates and the account found is active, its password matches and a secret is configured; the reply holds the account without its password, its role, and a token for its id |
| Routes.SigninFailures | routes/auth.js:157-179 | an unknown email and a wrong password get the identical 401; an inactive account gets the deactivated 401 whatever password is given |
| Routes.SigninVendorShadowsSupplier | routes/auth.js:149-155 | when a vendor holds the email, a successful sign-in is always the vendor account, so a supplier with the same email can never sign in |
| Routes.SignupThenSignin | routes/auth.js:134-191 | a new account signs in at once with the same credentials, as the same user and role, unless it is a supplier whose email a vendor already holds |
| Routes.TagSort | routes/auth.js:211-227 | tagging each document with its role and then sorting gives the same result as sorting and then tagging |
| Routes.ListUsers | routes/auth.js:208-240 | the listing holds every document of both collections once, tagged with its role and without its password, newest first; the counts are the two collection sizes and their sum |
| Middleware.BearerToken | middleware/auth.js:8-11 | a token is taken only from a header `Bearer <t>` with `t` non-empty, and it is exactly `t` |
| Middleware.ForgedTokenRefused | middleware/auth.js:21-52 | a bearer token with a wrong signature gets 401 "Invalid token." whatever its expiry, both from the middleware as written and from the corrected lookup |
| Middleware.BearerRoundTrip | middleware/auth.js:8-11 | the header a client builds for a token is read back as that token |
| Middleware.TokenId | middleware/auth.js:13-64 | a missing token gets 401 "no token"; an invalid token gets 401 "invalid"; an expired one gets 401 "expired"; a valid token whose id the lookup cannot cast gets 500 "Internal server error during authentication."; otherwise the verified id is passed on |
| Middleware.Admit | middleware/auth.js:25-42 | no account gets 401 "Invalid token. User not found."; an inactive account gets 401 "Account is deactivated. Please contact support."; an active account passes and is the account passed on |
| Middleware.Authenticate | middleware/auth.js:5-66 | the middleware either passes on an active document of the User collection or answers 401 or 500 |
| Middleware.IssuedTokenId | middleware/auth.js:20-24 | a header carrying an issued token names the issued id for 7 days and is refused as expired afterwards |
| Middleware.RouteTokenRejected | middleware/auth.js:24 | a token issued by the routes for an id that no User document has is refused as naming no user |
| Middleware.RouteTokenAccepted | middleware/auth.js:24-42 | resolved against the vendor and supplier collections, a fresh token of an active stored account authenticates as that account |
| Middleware.DemoTokenRejected | middleware/auth.js:47-52 | a demo server token is refused as invalid whatever the keys |
| Middleware.AuthorizeRole | middleware/auth.js:69-86 | no account gets 401; an account whose role is not allowed gets 403 "Access denied. Required role: " followed by the allowed roles joined by " or "; otherwise the account is passed on |
| Middleware.AccountsWithoutRoleForbidden | middleware/auth.js:78 | vendor and supplier documents have no role, so `authorizeRole` always forbids them |
| Middleware.AuthenticateThenAuthorize | middleware/auth.js:5-86 | an active User document with a fresh token passes authentication, then passes authorization exactly when its role is allowed |
| DemoServer.Select | working-server.js:93-98 | a vendor document keeps only `businessName` and `businessType`, a supplier document only `companyName` and `industryType` |
| DemoServer.DemoSignupFlow | working-server.js:75-156 | demo sign-up answers 201, 400 or 409 and only a 201 writes; a missing field gets 400 "Missing required fields", an unknown role 400 "Invalid role. Must be vendor or supplier", and an email the chosen collection holds exactly gets 409 "`<role>` with this email already exists" |
| DemoServer.DemoSignupKeepsValid | working-server.js:26-58 | every demo sign-up keeps emails unique within each collection and passwords hashed |
| DemoServer.DemoSignupSucceedsIff | working-server.js:82-117 | a demo sign-up answers 201 exactly when all five fields are present, the role is valid and no document of that role holds exactly this email |
| DemoServer.DemoRaceAnswered | working-server.js:139-148 | when another request stored the email between the check and the save, the demo handler answers 409 and writes nothing |
| DemoServer.DemoSignupSuccess | working-server.js:119-138 | a successful demo sign-up appends one document with the fields as given, a hash of the password and only the role's two profile keys; the reply holds it without its password, tagged with the role, with a demo token stamped by the later reading of the clock |
| DemoServer.DemoCaseVariantsCoexist | working-server.js:109-117 | an email that differs from a stored vendor's only in letter case registers a second vendor |
| DemoServer.DemoSignupThenSignin | working-server.js:159-218 | a new demo account signs in at once with the same credentials, unless it is a supplier whose exact email a vendor holds |
| DemoServer.DemoSignin | working-server.js:159-228 | demo sign-in answers only 200, 400 or 401; it answers 400 "Email and password are required" exactly when the email or the password is missing |
| DemoServer.DemoSigninSucceedsIff | working-server.js:166-218 | a demo sign-in with both fields answers 200 exactly when an account holds exactly this email, vendors first, and the password matches, whether or not the account is active; every other such request gets the same 401 |
| DemoServer.DemoUsers | working-server.js:231-253 | the demo listing is the vendors, then the suppliers, each stripped and tagged, in stored order; `total` is the sum of the two counts |

## Left out

- Email normalisation: `normalizeEmail` is modelled as ASCII lower-casing only. Its provider rules (Gmail dot and sub-address removal) are not modelled, and there is no Unicode case folding.
- `isEmail` is replaced by the host-name shape check `Patterns.LooksLikeEmail`, because the library's full grammar is too large. The two differ in both directions. The stand-in accepts some addresses `isEmail` refuses: an underscore in the host (`ab@x_y.com`) or a top-level label that is not alphabetic (`a@b.c1`); for those, the 201 condition of `Routes.SignupSucceedsIff` follows the stand-in. The stand-in refuses some addresses `isEmail` accepts: a quoted local part holding white space or an `@` (`"a b"@x.com`, `"a@b"@x.com`).
- Routes.ValidateSignin: a quoted local part such as `"a b"@x.com` is reported as a failing email field, so such a sign-in gets 400 here. The source passes it to `findByEmail`, which finds nothing because the schema pattern keeps such addresses out of the store, and answers 401 "Invalid email or password".
- Routes.ValidatedIsSanitised: "email without white space" is a property of the stand-in, not of `isEmail`, which passes `"a b"@x.com`. For sign-up this changes only the error list of the 400: the source's `isEmail` lets the address through and the schema pattern then refuses it at save time with a 400 "Validation failed".
- Validation error bodies name only the failing fields. The per-field messages and the `success` flag of every reply are not modelled.
- The corrected duplicate-key reply names `email`. In the source the field comes from the error's `keyPattern`; an `_id` clash cannot happen with fresh ids.
- Failures of bcrypt, of the database connection, and of `/users` queries are not modelled. These are the `next(error)` hook paths and the 500 paths other than a missing signing secret.
- The `/me` handler and the second `/users` handler of routes/auth.js are not modelled. `/me` names a `User` model the router never imports, and the second `/users` is shadowed by the first.
- Concurrency is reduced to one interleaving point: the duplicate check reads a snapshot, and the save goes to the current database.
- Sort ties: the in-memory sort is proved stable. The order in which MongoDB's `sort({ createdAt: -1 })` returns documents with equal `createdAt` is not modelled; the model takes them in stored order.
- Document ids are natural numbers, and tokens carry them in decimal. An id that does not parse stands for the `CastError` of `findById`. Leading zeros are accepted, which ObjectIds do not allow.
- The 72-byte limit of bcrypt is counted in characters, not in UTF-8 bytes.
- Accounts.NewAccount: the two `default: Date.now` values of one construction are taken as one clock reading, so `createdAt` and `updatedAt` start equal; JavaScript evaluates them one after the other, and they can differ by a millisecond.
- The demo server's `createdAt` defaults are likewise one reading per document; its token takes a separate, later reading.
- The main-router model assumes every document in the vendor and supplier collections was written by the main router, so stored emails are lower case (`Routes.DbValid`). The demo server connects to the same database and collections by default and stores emails as given; a document it wrote is outside the main-router model.
- The User collection is a parameter of the middleware. No handler in the modelled code writes to it.
- Demo server: the schemas' `required` checks cannot fail after the handler's own truthiness check, so they are not modelled. Non-string body values, the `__v` key of `toObject`, and the documents the main router writes to the same MongoDB collections are not modelled.
- The health-check and start-up code of working-server.js is I/O and is not modelled.
- DemoServer.DemoUsers: the reply's empty message stands for a body that has no message key.

## Findings

| source | as written | input that shows it | evidently intended | confidence | as-written member | corrected member |
|---|---|---|---|---|---|---|
| routes/auth.js:102-107 | the duplicate-key branch of the `catch` block builds its message from `role`, which is declared with `const` inside the `try` block (line 62); the branch throws a ReferenceError and the request never gets a response | two sign-ups for the same new email and role: both pass `findByEmail`, and the second `save` fails with code 11000 | answer 409 "Vendor (or Supplier) with this email already exists" and write nothing | high, not executed | Routes.SignupAsWritten (shown by Routes.SignupRaceFinding) | Routes.SignupRace (proved in Routes.SignupRaceFinding and Routes.SequentialSignupAgrees) |
| middleware/auth.js:24 | `authenticateToken` resolves the token's `userId` in the User collection, but `/signup` and `/signin` issue tokens for vendor and supplier ids | a token returned by `/signin` for a vendor, sent as `Authorization: Bearer <token>` | authenticate the vendor or supplier account the token was issued for | medium, not executed | Middleware.Authenticate (shown by Middleware.RouteTokenRejected) | Middleware.AuthenticateAccount (proved in Middleware.RouteTokenAccepted) |

=== FILE: accounts.dfy ===
/**
 * The credentialed identity records of Vendor.js, models/Supplier.js and
 * models/User.js. The three schemas share the name, email, phone and
 * password paths with identical rules, so one `Account` carries them and a
 * `Profile` carries what is particular to each: the vendor's business
 * fields, the supplier's company fields, the user's role.
 */
module Accounts {
  import opened Common
  import opened Text
  import opened Patterns
  import opened Bcrypt

  /** The two account kinds a request may name, each with its own collection. */
  datatype Role = Vendor | Supplier

  function RoleName(r: Role): string {
    match r
    case Vendor => "vendor"
    case Supplier => "supplier"
  }

  /** `isIn(['vendor', 'supplier'])` read as a role. */
  function ParseRole(s: string): (r: Option<Role>)
    ensures r.Some? ==> RoleName(r.value) == s
    ensures r.None? ==> s != "vendor" && s != "supplier"
  {
    if s == "vendor" then Some(Vendor)
    else if s == "supplier" then Some(Supplier)
    else None
  }

  lemma ParseRoleName(r: Role)
    ensures ParseRole(RoleName(r)) == Some(r)
  {
  }

  /** The values the `supplierType` enum admits. */
  const SupplierTypes: seq<string> := ["raw_materials", "finished_goods", "services", "equipment", "other"]

  datatype Profile =
    | VendorProfile(businessName: Option<string>, businessType: Option<string>,
                    gstNumber: Option<string>, isVerified: bool)
    | SupplierProfile(companyName: Option<string>, supplierType: string, licenseNumber: Option<string>,
                      certifications: seq<string>, isVerified: bool)
    | UserProfile(role: Option<string>)

  /** One stored document; `password` holds the digest once the document has been saved. */
  datatype Account = Account(
    id: nat,
    name: string,
    email: string,
    phone: string,
    password: Secret,
    profile: Profile,
    isActive: bool,
    createdAt: nat,
    updatedAt: nat)

  /** The schema paths a validation error can name, in schema order. */
  datatype Field =
    | Name | Email | Phone | Password
    | BusinessName | BusinessType | GstNumber
    | CompanyName | SupplierType | LicenseNumber
    | RoleField

  const AllFields: seq<Field> :=
    [Name, Email, Phone, Password, BusinessName, BusinessType, GstNumber,
     CompanyName, SupplierType, LicenseNumber, RoleField]

  /** The profile a new vendor or supplier document gets when no profile field is given. */
  function DefaultProfile(r: Role): (p: Profile)
    ensures r == Vendor ==> p.VendorProfile? && !p.isVerified
    ensures r == Supplier ==> p.SupplierProfile? && !p.isVerified && p.supplierType == "other"
  {
    match r
    case Vendor => VendorProfile(None, None, None, false)
    case Supplier => SupplierProfile(None, "other", None, [], false)
  }

  predicate ProfileOf(p: Profile, r: Role) {
    match r
    case Vendor => p.VendorProfile?
    case Supplier => p.SupplierProfile?
  }

  function TrimOpt(o: Option<string>): Option<string> {
    match o
    case None => None
    case Some(s) => Some(Trim(s))
  }

  /** The `trim` setter of each element of an array path. */
  function TrimAll(xs: seq<string>): (r: seq<string>)
    ensures |r| == |xs| && forall i :: 0 <= i < |xs| ==> r[i] == Trim(xs[i])
  {
    seq(|xs|, i requires 0 <= i < |xs| => Trim(xs[i]))
  }

  lemma TrimAllIdempotent(xs: seq<string>)
    ensures TrimAll(TrimAll(xs)) == TrimAll(xs)
  {
    forall i | 0 <= i < |xs| {
      TrimIdempotent(xs[i]);
    }
  }

  /** The `trim` setters of the profile paths; `supplierType` and `role` have none. */
  function CastProfile(p: Profile): Profile {
    match p
    case VendorProfile(bn, bt, gst, v) => VendorProfile(TrimOpt(bn), TrimOpt(bt), TrimOpt(gst), v)
    case SupplierProfile(cn, st, ln, certs, v) =>
      SupplierProfile(TrimOpt(cn), st, TrimOpt(ln), TrimAll(certs), v)
    case UserProfile(_) => p
  }

  /**
   * What Mongoose stores when values are assigned to a document: names,
   * phones and profile strings trimmed, the email lower-cased and trimmed.
   */
  function Cast(a: Account): (r: Account)
    ensures r.email == Trim(ToLower(a.email)) && IsLowerCase(r.email)
    ensures r.name == Trim(a.name) && r.phone == Trim(a.phone)
    ensures r.(name := a.name, email := a.email, phone := a.phone, profile := a.profile) == a
    ensures ProfileOf(r.profile, Vendor) <==> ProfileOf(a.profile, Vendor)
    ensures ProfileOf(r.profile, Supplier) <==> ProfileOf(a.profile, Supplier)
  {
    LowerCaseTrim(ToLower(a.email));
    a.(name := Trim(a.name), email := Trim(ToLower(a.email)), phone := Trim(a.phone), profile := CastProfile(a.profile))
  }

  lemma TrimOptIdempotent(o: Option<string>)
    ensures TrimOpt(TrimOpt(o)) == TrimOpt(o)
  {
    if o.Some? {
      TrimIdempotent(o.value);
    }
  }

  lemma CastProfileIdempotent(p: Profile)
    ensures CastProfile(CastProfile(p)) == CastProfile(p)
  {
    match p
    case VendorProfile(bn, bt, gst, _) =>
      TrimOptIdempotent(bn);
      TrimOptIdempotent(bt);
      TrimOptIdempotent(gst);
    case SupplierProfile(cn, _, ln, certs, _) =>
      TrimOptIdempotent(cn);
      TrimOptIdempotent(ln);
      TrimAllIdempotent(certs);
    case UserProfile(_) =>
  }

  /** The stored email is a fixed point of the email setters. */
  lemma EmailCastIdempotent(e: string)
    ensures Trim(ToLower(Trim(ToLower(e)))) == Trim(ToLower(e))
  {
    var t := Trim(ToLower(e));
    LowerCaseTrim(ToLower(e));
    ToLowerOfLowerCase(t);
    TrimIdempotent(ToLower(e));
  }

  /** Assigning an already stored value again changes nothing: the setters are idempotent. */
  lemma CastIdempotent(a: Account)
    ensures Cast(Cast(a)) == Cast(a)
  {
    TrimIdempotent(a.name);
    TrimIdempotent(a.phone);
    EmailCastIdempotent(a.email);
    CastProfileIdempotent(a.profile);
  }

  /**
   * `new Model({...})`: the given values cast by the setters, with the
   * schema defaults `isActive: true` and `createdAt = updatedAt = Date.now()`.
   */
  function NewAccount(id: nat, name: string, email: string, phone: string, password: string,
                      profile: Profile, now: nat): (a: Account)
    ensures a.id == id && a.isActive && a.password == Plain(password)
    ensures a.createdAt == now && a.updatedAt == now
    ensures a.name == Trim(name) && a.email == Trim(ToLower(email)) && a.phone == Trim(phone)
    ensures a.profile == CastProfile(profile)
    ensures Cast(a) == a
  {
    var raw := Account(id, name, email, phone, Plain(password), profile, true, now, now);
    CastIdempotent(raw);
    Cast(raw)
  }

  /** A `maxlength` validator: an absent value passes; the bound is on JavaScript's `length`. */
  predicate AtMost(o: Option<string>, n: nat) {
    o.None? || Utf16Length(o.value) <= n
  }

  /** The validators attached to one schema path; a path the document's schema lacks is vacuously fine. */
  predicate FieldOk(a: Account, f: Field) {
    match f
    case Name => 2 <= Utf16Length(a.name) <= 50
    case Email => IsSchemaEmail(a.email)
    case Phone => IsPhone(a.phone)
    case Password => a.password.Hashed? || 6 <= Utf16Length(a.password.text)
    case BusinessName => !a.profile.VendorProfile? || AtMost(a.profile.businessName, 100)
    case BusinessType => !a.profile.VendorProfile? || AtMost(a.profile.businessType, 50)
    case GstNumber =>
      !a.profile.VendorProfile? || a.profile.gstNumber.None? || a.profile.gstNumber.value == ""
      || IsGst(a.profile.gstNumber.value)
    case CompanyName => !a.profile.SupplierProfile? || AtMost(a.profile.companyName, 100)
    case SupplierType => !a.profile.SupplierProfile? || a.profile.supplierType in SupplierTypes
    case LicenseNumber => !a.profile.SupplierProfile? || AtMost(a.profile.licenseNumber, 50)
    case RoleField => !a.profile.UserProfile? || (a.profile.role.Some? && a.profile.role.value in ["vendor", "supplier"])
  }

  /** The document passes every validator of its schema. */
  predicate Valid(a: Account) {
    forall f :: FieldOk(a, f)
  }

  lemma AllFieldsListed(f: Field)
    ensures f in AllFields
  {
    match f
    case Name =>
    case Email =>
    case Phone =>
    case Password =>
    case BusinessName =>
    case BusinessType =>
    case GstNumber =>
    case CompanyName =>
    case SupplierType =>
    case LicenseNumber =>
    case RoleField =>
  }

  function Failing(a: Account, fs: seq<Field>): (r: seq<Field>)
    ensures forall f :: f in r <==> f in fs && !FieldOk(a, f)
  {
    if fs == [] then []
    else (if FieldOk(a, fs[0]) then [] else [fs[0]]) + Failing(a, fs[1..])
  }

  /** The paths named by the `ValidationError` a save of `a` raises; empty when it validates. */
  function SchemaErrors(a: Account): (r: seq<Field>)
    ensures forall f :: f in r <==> !FieldOk(a, f)
    ensures r == [] <==> Valid(a)
  {
    var r := Failing(a, AllFields);
    forall f {
      AllFieldsListed(f);
    }
    assert r != [] ==> r[0] in r;
    r
  }

  /** `toJSON()`: the document without its password path. */
  datatype Public = Public(
    id: nat,
    name: string,
    email: string,
    phone: string,
    profile: Profile,
    isActive: bool,
    createdAt: nat,
    updatedAt: nat)

  function WithPassword(p: Public, s: Secret): Account {
    Account(p.id, p.name, p.email, p.phone, s, p.profile, p.isActive, p.createdAt, p.updatedAt)
  }

  /** `toJSON` drops the password and keeps everything else: putting the password back restores the document. */
  function ToJson(a: Account): (p: Public)
    ensures WithPassword(p, a.password) == a
  {
    Public(a.id, a.name, a.email, a.phone, a.profile, a.isActive, a.createdAt, a.updatedAt)
  }

  /** Documents that differ only in their password serialise identically: no trace of it is exposed. */
  lemma ToJsonHidesPassword(a: Account, s: Secret)
    ensures ToJson(a.(password := s)) == ToJson(a)
  {
  }

  /** `comparePassword(candidate)`. */
  function ComparePassword(a: Account, candidate: string): (ok: bool)
    ensures ok <==> a.password.Hashed? && Verify(candidate, a.password.digest)
  {
    Compare(candidate, a.password)
  }

  /** The `role` property `authorizeRole` reads; only user documents have one. */
  function RoleOf(a: Account): Option<string> {
    if a.profile.UserProfile? then a.profile.role else None
  }
}

=== FILE: bcrypt.dfy ===
/**
 * The password hasher, treated symbolically. A digest records the cost
 * factor, the random salt and the key bcrypt derives from (the first 72
 * characters of the password); it cannot be confused with a plaintext
 * because it has its own type. `bcrypt.compare` is true exactly when the
 * candidate's key is the recorded one.
 */
module Bcrypt {

  /** The cost factor every schema passes to `bcrypt.hash` / `bcrypt.genSalt`. */
  const Cost: nat := 12

  /** bcrypt reads at most 72 bytes of a password; the rest is ignored. */
  const MaxKeyLength: nat := 72

  datatype Digest = Digest(cost: nat, salt: nat, key: string)

  /**
   * The `password` path of a document: a plaintext assigned since the
   * document was loaded (what `isModified('password')` detects), or the
   * digest the pre-save hook stored.
   */
  datatype Secret = Plain(text: string) | Hashed(digest: Digest)

  function Key(password: string): (k: string)
    ensures |k| <= MaxKeyLength
    ensures |password| <= MaxKeyLength ==> k == password
  {
    if |password| <= MaxKeyLength then password else password[..MaxKeyLength]
  }

  /** `bcrypt.compare(candidate, digest)`. */
  predicate Verify(candidate: string, d: Digest) {
    Key(candidate) == d.key
  }

  /** `bcrypt.hash(password, 12)` with the salt drawn by the library passed in. */
  function Hash(password: string, salt: nat): (d: Digest)
    ensures d.cost == Cost && d.salt == salt
    ensures Verify(password, d)
  {
    Digest(Cost, salt, Key(password))
  }

  /**
   * A digest accepts exactly the passwords that agree with the hashed one
   * on their first 72 characters, whatever the salt.
   */
  lemma VerifyHash(password: string, candidate: string, salt: nat)
    ensures Verify(candidate, Hash(password, salt)) <==> Key(candidate) == Key(password)
  {
  }

  /** For passwords bcrypt reads in full, only the hashed password itself is accepted. */
  lemma VerifyHashShort(password: string, candidate: string, salt: nat)
    requires |password| <= MaxKeyLength && |candidate| <= MaxKeyLength
    ensures Verify(candidate, Hash(password, salt)) <==> candidate == password
  {
  }

  /**
   * A schema's `comparePassword`: `bcrypt.compare` against the stored
   * path. A value that is not a digest never matches.
   */
  function Compare(candidate: string, stored: Secret): (ok: bool)
    ensures ok <==> stored.Hashed? && Verify(candidate, stored.digest)
  {
    match stored
    case Plain(_) => false
    case Hashed(d) => Verify(candidate, d)
  }

  /**
   * The pre-save hashing hook: a modified password is replaced by its
   * digest, an unmodified one is kept as it is.
   */
  function HashIfModified(s: Secret, salt: nat): (r: Secret)
    ensures r.Hashed?
    ensures s.Hashed? ==> r == s
    ensures s.Plain? ==> r.digest.cost == Cost && r.digest.salt == salt && Verify(s.text, r.digest)
  {
    match s
    case Plain(p) => Hashed(Hash(p, salt))
    case Hashed(_) => s
  }

  /** After the hook, comparing the plaintext that was set succeeds. */
  lemma CompareAfterHash(password: string, salt: nat)
    ensures Compare(password, HashIfModified(Plain(password), salt))
  {
  }

  /** The hook is idempotent: saving twice does not re-hash. */
  lemma HashIfModifiedIdempotent(s: Secret, salt: nat, salt': nat)
    ensures HashIfModified(HashIfModified(s, salt), salt') == HashIfModified(s, salt)
  {
  }
}

=== FILE: common.dfy ===
/** Small datatypes and helpers shared by every module of the model. */
module Common {

  /** A value that may be absent: an optional request or schema field. */
  datatype Option<+T> = None | Some(value: T)

  /** Either a computed value or the error that stopped the computation. */
  datatype Result<+T, +E> = Success(value: T) | Failure(error: E)

  /** Position of the first element of `s` whose `key` is `k`, or `|s|` when there is none. */
  function IndexWhere<T, K(==)>(s: seq<T>, key: T -> K, k: K): (i: nat)
    ensures i <= |s|
    ensures forall j :: 0 <= j < i ==> key(s[j]) != k
    ensures i < |s| ==> key(s[i]) == k
  {
    if |s| == 0 then 0
    else if key(s[0]) == k then 0
    else 1 + IndexWhere(s[1..], key, k)
  }
}

=== FILE: demo_server.dfy ===
/**
 * The stand-alone server of working-server.js: its own, looser vendor and
 * supplier schemas (no trimming, no lower-casing, no patterns, no
 * `isActive`) and its sign-up, sign-in and `/users` handlers. Emails are
 * matched exactly as given, and the token is a clock reading, not a
 * signed one.
 */
module DemoServer {
  import opened Common
  import opened Text
  import opened Bcrypt
  import opened Accounts
  import opened Http
  import Routes
  import Jwt

  /** The profile keys the handler copies into the new document: two per role, the others dropped. */
  datatype Extra =
    | VendorExtra(businessName: Option<string>, businessType: Option<string>)
    | SupplierExtra(companyName: Option<string>, industryType: Option<string>)

  /** A document of either demo schema. */
  datatype DemoAccount = DemoAccount(
    id: nat,
    name: string,
    email: string,
    phone: string,
    password: Secret,
    extra: Extra,
    createdAt: nat)

  type DemoCollection = seq<DemoAccount>

  datatype DemoDb = DemoDb(vendors: DemoCollection, suppliers: DemoCollection, nextId: nat)

  function Coll(db: DemoDb, r: Role): DemoCollection {
    match r
    case Vendor => db.vendors
    case Supplier => db.suppliers
  }

  function WithColl(db: DemoDb, r: Role, c: DemoCollection): (db': DemoDb)
    ensures Coll(db', r) == c && Coll(db', Routes.Other(r)) == Coll(db, Routes.Other(r)) && db'.nextId == db.nextId
  {
    match r
    case Vendor => db.(vendors := c)
    case Supplier => db.(suppliers := c)
  }

  predicate ExtraOf(e: Extra, r: Role) {
    match r
    case Vendor => e.VendorExtra?
    case Supplier => e.SupplierExtra?
  }

  /**
   * What the unique `email` index and the hashing hook keep true of a demo
   * collection, and that its documents belong to its role and carry ids
   * already handed out.
   */
  predicate Holds(c: DemoCollection, r: Role, nextId: nat) {
    && (forall i, j :: 0 <= i < j < |c| ==> c[i].email != c[j].email)
    && forall i :: 0 <= i < |c| ==> c[i].password.Hashed? && ExtraOf(c[i].extra, r) && c[i].id < nextId
  }

  predicate DemoValid(db: DemoDb) {
    Holds(db.vendors, Vendor, db.nextId) && Holds(db.suppliers, Supplier, db.nextId)
  }

  /** Position of the first document whose email is exactly `email`, or `|c|`. */
  function IndexOfEmail(c: DemoCollection, email: string): (k: nat)
    ensures k <= |c|
    ensures forall i :: 0 <= i < k ==> c[i].email != email
    ensures k < |c| ==> c[k].email == email
  {
    IndexWhere(c, (d: DemoAccount) => d.email, email)
  }

  /** `findOne({ email })`: an exact, case-sensitive match. */
  function FindOne(c: DemoCollection, email: string): (r: Option<DemoAccount>)
    ensures r.None? <==> forall i :: 0 <= i < |c| ==> c[i].email != email
    ensures r.Some? ==> r.value in c && r.value.email == email
  {
    var k := IndexOfEmail(c, email);
    if k < |c| then Some(c[k]) else None
  }

  /** The `userData` the handler builds: `businessName` and `businessType` for a vendor, `companyName` and `industryType` for a supplier. */
  function Select(r: Role, x: ProfileFields): (e: Extra)
    ensures ExtraOf(e, r)
  {
    match r
    case Vendor => VendorExtra(x.businessName, x.businessType)
    case Supplier => SupplierExtra(x.companyName, x.industryType)
  }

  /** `toObject()` with `password` deleted and the role added. */
  datatype DemoUser = DemoUser(
    id: nat,
    name: string,
    email: string,
    phone: string,
    extra: Extra,
    createdAt: nat,
    role: Role)

  function Strip(a: DemoAccount, r: Role): (u: DemoUser)
    ensures u.role == r
    ensures DemoAccount(u.id, u.name, u.email, u.phone, a.password, u.extra, u.createdAt) == a
  {
    DemoUser(a.id, a.name, a.email, a.phone, a.extra, a.createdAt, r)
  }

  datatype DemoBody =
    | NoData
    | Session(user: DemoUser, token: string)
    | Directory(users: seq<DemoUser>, counts: Routes.Counts)

  /** A reply; the `/users` reply has no message, written as the empty one. */
  datatype DemoReply = DemoReply(status: nat, message: string, body: DemoBody)

  datatype DemoOutcome = DemoOutcome(reply: DemoReply, db: DemoDb)

  const MissingFields := "Missing required fields"
  const InvalidRole := "Invalid role. Must be vendor or supplier"
  const EmailTaken := "Email already exists"
  const MissingCredentials := "Email and password are required"

  /** `'demo_token_' + Date.now()`: not signed, and readable by anyone. */
  function DemoToken(now: nat): (t: string)
    ensures '.' !in t
  {
    Jwt.NoDotInDecimal(now);
    "demo_token_" + Decimal(now)
  }

  /** Every one of `name`, `email`, `phone`, `password` and `role` is present and non-empty. */
  predicate HasRequired(req: SignupRequest) {
    req.name != "" && req.email != "" && req.phone != "" && req.password != "" && req.role != ""
  }

  /** `${role} with this email already exists`, with the role in lower case. */
  function TakenMessage(r: Role): string {
    RoleName(r) + " with this email already exists"
  }

  /** `${role} registered successfully`. */
  function RegisteredMessage(r: Role): string {
    RoleName(r) + " registered successfully"
  }

  /**
   * `POST /api/auth/signup` of the demo server. The existence check reads
   * the snapshot `seen`; the save goes to `db`, whose unique index turns a
   * concurrent duplicate into a 409 of its own. `now` is the clock when the
   * document is built (its `createdAt`), `sentAt` the later reading the
   * token is made from.
   */
  function DemoSignupFlow(req: SignupRequest, seen: DemoDb, db: DemoDb, now: nat, sentAt: nat, salt: nat): (o: DemoOutcome)
    ensures o.reply.status in {201, 400, 409}
    ensures o.reply.status != 201 ==> o.db == db
    ensures o.reply.status == 201 ==> HasRequired(req) && ParseRole(req.role).Some?
    ensures !HasRequired(req) ==> o == DemoOutcome(DemoReply(400, MissingFields, NoData), db)
    ensures HasRequired(req) && ParseRole(req.role).None? ==> o == DemoOutcome(DemoReply(400, InvalidRole, NoData), db)
    ensures && HasRequired(req) && ParseRole(req.role).Some?
            && FindOne(Coll(seen, ParseRole(req.role).value), req.email).Some?
            ==> o == DemoOutcome(DemoReply(409, TakenMessage(ParseRole(req.role).value), NoData), db)
  {
    if !HasRequired(req) then DemoOutcome(DemoReply(400, MissingFields, NoData), db)
    else
      match ParseRole(req.role)
      case None => DemoOutcome(DemoReply(400, InvalidRole, NoData), db)
      case Some(role) =>
        if FindOne(Coll(seen, role), req.email).Some? then
          DemoOutcome(DemoReply(409, TakenMessage(role), NoData), db)
        else
          var c := Coll(db, role);
          var doc := DemoAccount(db.nextId, req.name, req.email, req.phone,
                                 HashIfModified(Plain(req.password), salt), Select(role, req.extra), now);
          if FindOne(c, req.email).Some? then
            // error code 11000 from the unique index
            DemoOutcome(DemoReply(409, EmailTaken, NoData), db)
          else
            DemoOutcome(DemoReply(201, RegisteredMessage(role), Session(Strip(doc, role), DemoToken(sentAt))),
                        WithColl(db, role, c + [doc]).(nextId := db.nextId + 1))
  }

  function DemoSignup(req: SignupRequest, db: DemoDb, now: nat, sentAt: nat, salt: nat): DemoOutcome {
    DemoSignupFlow(req, db, db, now, sentAt, salt)
  }

  /** The account demo sign-in resolves an email to: the vendor collection first, then the supplier one. */
  function DemoLookup(db: DemoDb, email: string): (r: Option<(DemoAccount, Role)>)
    ensures r.Some? ==> r.value.0 in Coll(db, r.value.1) && r.value.0.email == email
    ensures r.None? <==> FindOne(db.vendors, email).None? && FindOne(db.suppliers, email).None?
    ensures FindOne(db.vendors, email).Some? ==> r == Some((FindOne(db.vendors, email).value, Vendor))
  {
    match FindOne(db.vendors, email)
    case Some(v) => Some((v, Vendor))
    case None =>
      match FindOne(db.suppliers, email)
      case Some(s) => Some((s, Supplier))
      case None => None
  }

  /** `POST /api/auth/signin` of the demo server; there is no active-account check. */
  function DemoSignin(req: SigninRequest, db: DemoDb, now: nat): (r: DemoReply)
    ensures r.status in {200, 400, 401}
    ensures req.email == "" || req.password == "" ==> r == DemoReply(400, MissingCredentials, NoData)
    ensures r.status == 400 ==> req.email == "" || req.password == ""
  {
    if req.email == "" || req.password == "" then DemoReply(400, MissingCredentials, NoData)
    else
      match DemoLookup(db, req.email)
      case None => DemoReply(401, Routes.InvalidCredentials, NoData)
      case Some((user, role)) =>
        if !Compare(req.password, user.password) then DemoReply(401, Routes.InvalidCredentials, NoData)
        else DemoReply(200, Routes.LoggedIn, Session(Strip(user, role), DemoToken(now)))
  }

  /** Each document of `c` stripped and tagged with `r`, in collection order. */
  function StripAll(c: DemoCollection, r: Role): (us: seq<DemoUser>)
    ensures |us| == |c| && forall i :: 0 <= i < |c| ==> us[i] == Strip(c[i], r)
  {
    seq(|c|, i requires 0 <= i < |c| => Strip(c[i], r))
  }

  /** `GET /api/auth/users` of the demo server: vendors then suppliers, each in stored order, unsorted. */
  function DemoUsers(db: DemoDb): (r: DemoReply)
    ensures r.status == 200 && r.body.Directory?
    ensures r.body.counts.total == r.body.counts.vendors + r.body.counts.suppliers == |r.body.users|
    ensures r.body.counts.vendors == |db.vendors| && r.body.counts.suppliers == |db.suppliers|
    ensures forall i :: 0 <= i < |r.body.users| ==>
              r.body.users[i] == if i < |db.vendors| then Strip(db.vendors[i], Vendor)
                                 else Strip(db.suppliers[i - |db.vendors|], Supplier)
  {
    var users := StripAll(db.vendors, Vendor) + StripAll(db.suppliers, Supplier);
    DemoReply(200, "", Directory(users, Routes.Counts(|db.vendors|, |db.suppliers|, |users|)))
  }

  /** Every demo sign-up, interleaved with other saves or not, keeps the unique index and hashing invariant. */
  lemma DemoSignupKeepsValid(req: SignupRequest, seen: DemoDb, db: DemoDb, now: nat, sentAt: nat, salt: nat)
    requires DemoValid(db)
    ensures DemoValid(DemoSignupFlow(req, seen, db, now, sentAt, salt).db)
  {
    var o := DemoSignupFlow(req, seen, db, now, sentAt, salt);
    if o.reply.status == 201 {
      var role := ParseRole(req.role).value;
      var c := Coll(db, role);
      assert o.db == WithColl(db, role, c + [Coll(o.db, role)[|c|]]).(nextId := db.nextId + 1);
      DemoAppendKeepsValid(db, role, Coll(o.db, role)[|c|]);
    }
  }

  /** Appending a hashed document of the role, with a new email and the next id, keeps the invariant. */
  lemma DemoAppendKeepsValid(db: DemoDb, role: Role, x: DemoAccount)
    requires DemoValid(db) && FindOne(Coll(db, role), x.email).None?
    requires x.password.Hashed? && ExtraOf(x.extra, role) && x.id == db.nextId
    ensures DemoValid(WithColl(db, role, Coll(db, role) + [x]).(nextId := db.nextId + 1))
  {
    var c := Coll(db, role);
    var c' := c + [x];
    assert forall i :: 0 <= i < |c| ==> c'[i] == c[i];
    assert Holds(c', role, db.nextId + 1);
    assert Holds(Coll(db, Routes.Other(role)), Routes.Other(role), db.nextId + 1);
  }

  /**
   * A sequential demo sign-up succeeds exactly when the five required
   * fields are present, the role is `vendor` or `supplier`, and no
   * document of that role's collection has exactly this email.
   */
  lemma DemoSignupSucceedsIff(req: SignupRequest, db: DemoDb, now: nat, sentAt: nat, salt: nat)
    ensures DemoSignup(req, db, now, sentAt, salt).reply.status == 201
            <==> HasRequired(req) && ParseRole(req.role).Some?
                 && FindOne(Coll(db, ParseRole(req.role).value), req.email).None?
  {
  }

  /**
   * What a successful demo sign-up stores and answers: one new document at
   * the end of the role's collection holding the fields as given, the
   * hashed password and only the role's two profile keys; the other
   * collection untouched; the reply carries the document without its
   * password, tagged with the role, and a demo token.
   */
  lemma DemoSignupSuccess(req: SignupRequest, db: DemoDb, now: nat, sentAt: nat, salt: nat)
    requires DemoSignup(req, db, now, sentAt, salt).reply.status == 201
    ensures var o := DemoSignup(req, db, now, sentAt, salt);
            var role := ParseRole(req.role).value;
            var c := Coll(db, role);
            && o.db.nextId == db.nextId + 1
            && Coll(o.db, Routes.Other(role)) == Coll(db, Routes.Other(role))
            && |Coll(o.db, role)| == |c| + 1 && Coll(o.db, role)[..|c|] == c
            && var doc := Coll(o.db, role)[|c|];
               && doc.id == db.nextId && doc.name == req.name && doc.email == req.email && doc.phone == req.phone
               && doc.extra == Select(role, req.extra) && doc.createdAt == now
               && Compare(req.password, doc.password)
               && o.reply == DemoReply(201, RegisteredMessage(role), Session(Strip(doc, role), DemoToken(sentAt)))
  {
    var o := DemoSignup(req, db, now, sentAt, salt);
    var role := ParseRole(req.role).value;
    var c := Coll(db, role);
    assert Coll(o.db, role)[..|c|] == c;
  }

  /**
   * The demo server compares emails exactly: an address that differs from
   * a stored vendor's only in letter case registers a second vendor, where
   * the main router would answer 409.
   */
  lemma DemoCaseVariantsCoexist(req: SignupRequest, db: DemoDb, now: nat, sentAt: nat, salt: nat, k: nat)
    requires DemoValid(db) && HasRequired(req) && req.role == "vendor"
    requires k < |db.vendors| && db.vendors[k].email != req.email && ToLower(db.vendors[k].email) == ToLower(req.email)
    requires FindOne(db.vendors, req.email).None?
    ensures var o := DemoSignup(req, db, now, sentAt, salt);
            && o.reply.status == 201
            && o.db.vendors[k] == db.vendors[k]
            && o.db.vendors[|db.vendors|].email == req.email
            && ToLower(o.db.vendors[k].email) == ToLower(o.db.vendors[|db.vendors|].email)
  {
    DemoSignupSuccess(req, db, now, sentAt, salt);
  }

  /**
   * A concurrent save of the same email between the check and the save is
   * turned by the unique index into a 409 with its own message, and
   * nothing is written.
   */
  lemma DemoRaceAnswered(req: SignupRequest, seen: DemoDb, db: DemoDb, now: nat, sentAt: nat, salt: nat)
    requires HasRequired(req) && ParseRole(req.role).Some?
    requires FindOne(Coll(seen, ParseRole(req.role).value), req.email).None?
    requires FindOne(Coll(db, ParseRole(req.role).value), req.email).Some?
    ensures DemoSignupFlow(req, seen, db, now, sentAt, salt) == DemoOutcome(DemoReply(409, EmailTaken, NoData), db)
  {
  }

  /**
   * A demo sign-in succeeds exactly when both fields are present, an
   * account holds exactly this email (vendors first) and the password
   * matches its digest; whether the account is active is never asked. An
   * unknown email and a wrong password get the same reply.
   */
  lemma DemoSigninSucceedsIff(req: SigninRequest, db: DemoDb, now: nat)
    ensures var r := DemoSignin(req, db, now);
            var found := DemoLookup(db, req.email);
            && (r.status == 200
                <==> req.email != "" && req.password != "" && found.Some?
                     && Compare(req.password, found.value.0.password))
            && (r.status == 200 ==> r.body == Session(Strip(found.value.0, found.value.1), DemoToken(now)))
            && (req.email != "" && req.password != "" && r.status != 200
                ==> r == DemoReply(401, Routes.InvalidCredentials, NoData))
  {
  }

  /**
   * The account a demo sign-up creates signs in at once with the same
   * email and password, unless it is a supplier whose exact email a vendor
   * already holds.
   */
  lemma DemoSignupThenSignin(req: SignupRequest, db: DemoDb, now: nat, sentAt: nat, salt: nat, later: nat)
    requires DemoSignup(req, db, now, sentAt, salt).reply.status == 201
    requires req.role == "vendor" || FindOne(db.vendors, req.email).None?
    ensures var o := DemoSignup(req, db, now, sentAt, salt);
            var r := DemoSignin(SigninRequest(req.email, req.password), o.db, later);
            && r.status == 200
            && r.body.user == o.reply.body.user
  {
    var o := DemoSignup(req, db, now, sentAt, salt);
    var role := ParseRole(req.role).value;
    var c := Coll(db, role);
    DemoSignupSuccess(req, db, now, sentAt, salt);
    var doc := Coll(o.db, role)[|c|];
    if role == Vendor {
      assert DemoLookup(o.db, req.email) == Some((doc, Vendor));
    } else {
      assert o.db.vendors == db.vendors;
      assert DemoLookup(o.db, req.email) == Some((doc, Supplier));
    }
  }
}

=== FILE: http.dfy ===
/**
 * Request bodies of the sign-up and sign-in endpoints, shared by the two
 * servers. A field the client leaves out is the empty string: the
 * validators and the `!field` checks treat both alike.
 */
module Http {
  import opened Common

  /** The profile keys a sign-up body may carry besides the required ones. */
  datatype ProfileFields = ProfileFields(
    businessName: Option<string>,
    businessType: Option<string>,
    companyName: Option<string>,
    industryType: Option<string>)

  datatype SignupRequest = SignupRequest(
    name: string,
    email: string,
    phone: string,
    password: string,
    role: string,
    extra: ProfileFields)

  datatype SigninRequest = SigninRequest(email: string, password: string)
}

=== FILE: jwt.dfy ===
/**
 * Signed bearer tokens as `jsonwebtoken` issues and checks them, with the
 * cryptography abstracted. A token is the text
 * `<signature>.<iat>.<exp>.<userId>`: three decimal numbers and the user id
 * claim. The signature is a keyed MAC, supplied with the server secret,
 * over the text after the first dot. Times in tokens are whole seconds;
 * the server clock is in milliseconds, as `Date.now()` is.
 */
module Jwt {
  import opened Common
  import opened Text

  /** `expiresIn: '7d'`, in seconds. */
  const Week: nat := 7 * 24 * 60 * 60

  /** `process.env.JWT_SECRET` and the MAC it keys; an empty secret is an unset one. */
  datatype Keys = Keys(secret: string, mac: (string, string) -> nat)

  datatype Claims = Claims(userId: string, iat: nat, exp: nat)

  /** Outcome of `jwt.verify`: the claims, a `JsonWebTokenError`, or a `TokenExpiredError`. */
  datatype Verdict = Valid(claims: Claims) | Invalid | Expired

  function Payload(c: Claims): string {
    Decimal(c.iat) + "." + Decimal(c.exp) + "." + c.userId
  }

  function Encode(c: Claims, signature: nat): string {
    Decimal(signature) + "." + Payload(c)
  }

  /** Splits a token into its claims, its signature and the signed text; `None` for a malformed token. */
  function Decode(t: string): Option<(Claims, nat, string)> {
    match Cut(t, '.')
    case None => None
    case Some((sig, signed)) =>
      match Cut(signed, '.')
      case None => None
      case Some((iat, rest)) =>
        match Cut(rest, '.')
        case None => None
        case Some((exp, userId)) =>
          match (ParseDecimal(sig), ParseDecimal(iat), ParseDecimal(exp))
          case (Some(s), Some(i), Some(e)) => Some((Claims(userId, i, e), s, signed))
          case _ => None
  }

  lemma NoDotInDecimal(n: nat)
    ensures '.' !in Decimal(n)
  {
  }

  /** Decoding an encoded token gives back its claims, its signature and the text that was signed. */
  lemma DecodeEncode(c: Claims, signature: nat)
    ensures Decode(Encode(c, signature)) == Some((c, signature, Payload(c)))
  {
    var rest := Decimal(c.exp) + "." + c.userId;
    NoDotInDecimal(signature);
    NoDotInDecimal(c.iat);
    NoDotInDecimal(c.exp);
    assert Encode(c, signature) == Decimal(signature) + ['.'] + Payload(c);
    CutJoined(Decimal(signature), '.', Payload(c));
    assert Payload(c) == Decimal(c.iat) + ['.'] + rest;
    CutJoined(Decimal(c.iat), '.', rest);
    assert rest == Decimal(c.exp) + ['.'] + c.userId;
    CutJoined(Decimal(c.exp), '.', c.userId);
    DecimalRoundTrip(signature);
    DecimalRoundTrip(c.iat);
    DecimalRoundTrip(c.exp);
  }

  /** `jwt.sign(claims, secret)`; it throws when the secret is missing. */
  function Sign(c: Claims, keys: Keys): (t: Option<string>)
    ensures t.Some? <==> keys.secret != ""
  {
    if keys.secret == "" then None
    else Some(Encode(c, keys.mac(keys.secret, Payload(c))))
  }

  /** `generateToken(userId)` at clock `nowMs`: a token for the user that expires seven days after it was issued. */
  function Issue(userId: string, nowMs: nat, keys: Keys): (t: Option<string>)
    ensures t.Some? <==> keys.secret != ""
  {
    Sign(Claims(userId, nowMs / 1000, nowMs / 1000 + Week), keys)
  }

  /**
   * `jwt.verify(token, secret)` at clock `nowMs`: malformed text, a missing
   * secret and a wrong signature are all `Invalid`; a well-signed token whose
   * expiry second has been reached is `Expired`.
   */
  function Verify(t: string, keys: Keys, nowMs: nat): (v: Verdict)
    ensures v.Valid? ==> nowMs / 1000 < v.claims.exp
    ensures !v.Invalid? ==> keys.secret != "" && Decode(t).Some?
    ensures v.Expired? ==> Decode(t).value.0.exp <= nowMs / 1000
    ensures Decode(t).None? ==> v.Invalid?
    ensures Decode(t).Some?
            ==> (v.Invalid? <==> keys.secret == "" || Decode(t).value.1 != keys.mac(keys.secret, Decode(t).value.2))
    ensures !v.Invalid? ==> (v.Expired? <==> Decode(t).value.0.exp <= nowMs / 1000)
    ensures v.Valid? ==> v.claims == Decode(t).value.0
  {
    match Decode(t)
    case None => Invalid
    case Some((c, signature, signed)) =>
      if keys.secret == "" then Invalid
      else if signature != keys.mac(keys.secret, signed) then Invalid
      else if c.exp <= nowMs / 1000 then Expired
      else Valid(c)
  }

  /**
   * A token issued at `issuedMs` verifies, at any later or earlier clock
   * `nowMs`, to the claims it was issued with until the seventh day after
   * the issue second, and as expired from then on.
   */
  lemma IssueThenVerify(userId: string, issuedMs: nat, nowMs: nat, keys: Keys)
    requires keys.secret != ""
    ensures var iat := issuedMs / 1000;
            Verify(Issue(userId, issuedMs, keys).value, keys, nowMs)
            == if nowMs / 1000 < iat + Week then Valid(Claims(userId, iat, iat + Week)) else Expired
  {
    var c := Claims(userId, issuedMs / 1000, issuedMs / 1000 + Week);
    DecodeEncode(c, keys.mac(keys.secret, Payload(c)));
  }

  /**
   * A token whose signature is not the MAC of its claims under the keys is
   * refused as invalid, whatever its expiry: the signature is checked first.
   */
  lemma ForgedTokenInvalid(c: Claims, signature: nat, keys: Keys, nowMs: nat)
    requires signature != keys.mac(keys.secret, Payload(c))
    ensures Verify(Encode(c, signature), keys, nowMs) == Invalid
  {
    DecodeEncode(c, signature);
  }

  const Day: nat := 24 * 60 * 60 * 1000

  /** A token is accepted six days after issue and rejected as expired eight days after. */
  lemma SevenDayWindow(userId: string, issuedMs: nat, keys: Keys)
    requires keys.secret != ""
    ensures Verify(Issue(userId, issuedMs, keys).value, keys, issuedMs + 6 * Day).Valid?
    ensures Verify(Issue(userId, issuedMs, keys).value, keys, issuedMs + 8 * Day) == Expired
  {
    IssueThenVerify(userId, issuedMs, issuedMs + 6 * Day, keys);
    IssueThenVerify(userId, issuedMs, issuedMs + 8 * Day, keys);
  }

  /** A token that verifies names the user it was issued to, whatever clock it is checked at. */
  lemma VerifiedUserIsIssuedUser(userId: string, issuedMs: nat, nowMs: nat, keys: Keys)
    requires keys.secret != ""
    requires Verify(Issue(userId, issuedMs, keys).value, keys, nowMs).Valid?
    ensures Verify(Issue(userId, issuedMs, keys).value, keys, nowMs).claims.userId == userId
  {
    IssueThenVerify(userId, issuedMs, nowMs, keys);
  }
}

=== FILE: middleware.dfy ===
/**
 * The bearer-token middleware of middleware/auth.js: `authenticateToken`
 * turns the `Authorization` header into the account the request acts for,
 * and `authorizeRole(...roles)` admits only accounts whose `role` is one
 * of the given names. A middleware either passes the request on (`Next`,
 * with the account it attached) or answers and stops it (`Deny`).
 */
module Middleware {
  import opened Common
  import opened Text
  import opened Accounts
  import opened Store
  import Jwt
  import Routes
  import DemoServer

  datatype Gate = Next(user: Account) | Deny(status: nat, message: string)

  const NoToken := "Access denied. No token provided."
  const BadToken := "Invalid token."
  const ExpiredToken := "Token expired. Please login again."
  const UnknownUser := "Invalid token. User not found."
  const AuthFailed := "Internal server error during authentication."
  const LoginRequired := "Authentication required."

  const Scheme := "Bearer "

  /**
   * The token of an `Authorization` header: the text after `Bearer `. A
   * missing header, another scheme and an empty remainder all give none.
   */
  function BearerToken(header: Option<string>): (t: Option<string>)
    ensures t.Some? <==> header.Some? && StartsWith(header.value, Scheme) && |header.value| > |Scheme|
    ensures t.Some? ==> t.value != "" && header.value == Scheme + t.value
  {
    if header.Some? && StartsWith(header.value, Scheme) && header.value[|Scheme|..] != "" then
      assert header.value == header.value[..|Scheme|] + header.value[|Scheme|..];
      Some(header.value[|Scheme|..])
    else None
  }

  /** The header a client sends for a token is read back as that token. */
  lemma BearerRoundTrip(token: string)
    requires token != ""
    ensures BearerToken(Some(Scheme + token)) == Some(token)
  {
    var h := Scheme + token;
    assert h[..|Scheme|] == Scheme;
    assert h[|Scheme|..] == token;
  }

  /**
   * The id a request's token names, or the answer that stops it: no token,
   * a token `jwt.verify` rejects or finds expired, or an id the lookup
   * cannot cast (a `CastError`, which falls through to the 500 branch).
   */
  function TokenId(header: Option<string>, keys: Jwt.Keys, nowMs: nat): (r: Result<nat, Gate>)
    ensures r.Failure? ==> r.error.Deny? && r.error.status in {401, 500}
    ensures r.Success? <==> && BearerToken(header).Some?
                            && Jwt.Verify(BearerToken(header).value, keys, nowMs).Valid?
                            && ParseDecimal(Jwt.Verify(BearerToken(header).value, keys, nowMs).claims.userId).Some?
    ensures r.Success? ==> r.value == ParseDecimal(Jwt.Verify(BearerToken(header).value, keys, nowMs).claims.userId).value
    ensures BearerToken(header).None? ==> r == Failure(Deny(401, NoToken))
    ensures BearerToken(header).Some? && Jwt.Verify(BearerToken(header).value, keys, nowMs).Invalid?
            ==> r == Failure(Deny(401, BadToken))
    ensures BearerToken(header).Some? && Jwt.Verify(BearerToken(header).value, keys, nowMs).Expired?
            ==> r == Failure(Deny(401, ExpiredToken))
    ensures && BearerToken(header).Some? && Jwt.Verify(BearerToken(header).value, keys, nowMs).Valid?
            && ParseDecimal(Jwt.Verify(BearerToken(header).value, keys, nowMs).claims.userId).None?
            ==> r == Failure(Deny(500, AuthFailed))
  {
    match BearerToken(header)
    case None => Failure(Deny(401, NoToken))
    case Some(token) =>
      match Jwt.Verify(token, keys, nowMs)
      case Invalid => Failure(Deny(401, BadToken))
      case Expired => Failure(Deny(401, ExpiredToken))
      case Valid(claims) =>
        match ParseDecimal(claims.userId)
        case None => Failure(Deny(500, AuthFailed))
        case Some(id) => Success(id)
  }

  /** The account found for a verified token is admitted only when it is active. */
  function Admit(found: Option<Account>): (g: Gate)
    ensures g.Next? <==> found.Some? && found.value.isActive
    ensures g.Next? ==> g.user == found.value
    ensures found.None? ==> g == Deny(401, UnknownUser)
    ensures found.Some? && !found.value.isActive ==> g == Deny(401, Routes.Deactivated)
  {
    match found
    case None => Deny(401, UnknownUser)
    case Some(user) => if !user.isActive then Deny(401, Routes.Deactivated) else Next(user)
  }

  /** `authenticateToken` as written: the token's id is looked up in the User collection. */
  function Authenticate(header: Option<string>, users: Collection, keys: Jwt.Keys, nowMs: nat): (g: Gate)
    ensures g.Next? ==> g.user in users && g.user.isActive
    ensures g.Deny? ==> g.status in {401, 500}
  {
    match TokenId(header, keys, nowMs)
    case Failure(denied) => denied
    case Success(id) => Admit(FindById(users, id))
  }

  /** The account with a given id in either collection the routes write, vendors first. */
  function FindAccountById(db: Routes.Db, id: nat): (r: Option<Account>)
    ensures r.Some? ==> r.value.id == id && (r.value in db.vendors || r.value in db.suppliers)
    ensures r.None? <==> FindById(db.vendors, id).None? && FindById(db.suppliers, id).None?
  {
    match FindById(db.vendors, id)
    case Some(v) => Some(v)
    case None => FindById(db.suppliers, id)
  }

  /** `authenticateToken` resolving the token against the collections the routes issue tokens for. */
  function AuthenticateAccount(header: Option<string>, db: Routes.Db, keys: Jwt.Keys, nowMs: nat): (g: Gate)
    ensures g.Next? ==> (g.user in db.vendors || g.user in db.suppliers) && g.user.isActive
    ensures g.Deny? ==> g.status in {401, 500}
  {
    match TokenId(header, keys, nowMs)
    case Failure(denied) => denied
    case Success(id) => Admit(FindAccountById(db, id))
  }

  /**
   * A header carrying a token signed for `Decimal(id)` names `id` while the
   * token is younger than seven days, and is refused as expired after.
   */
  lemma IssuedTokenId(id: nat, issuedMs: nat, nowMs: nat, keys: Jwt.Keys)
    requires keys.secret != ""
    ensures var header := Some(Scheme + Jwt.Issue(Decimal(id), issuedMs, keys).value);
            TokenId(header, keys, nowMs)
            == if nowMs / 1000 < issuedMs / 1000 + Jwt.Week then Success(id) else Failure(Deny(401, ExpiredToken))
  {
    var token := Jwt.Issue(Decimal(id), issuedMs, keys).value;
    Jwt.IssueThenVerify(Decimal(id), issuedMs, nowMs, keys);
    assert token != "" by {
      assert Jwt.Verify(token, keys, nowMs).Valid? || Jwt.Verify(token, keys, nowMs).Expired?;
    }
    BearerRoundTrip(token);
    DecimalRoundTrip(id);
  }

  /**
   * A bearer token whose signature is not the MAC of its signed text is
   * refused as invalid, whatever its expiry and whatever accounts exist.
   */
  lemma ForgedTokenRefused(c: Jwt.Claims, signature: nat, users: Collection, db: Routes.Db, keys: Jwt.Keys, nowMs: nat)
    requires signature != keys.mac(keys.secret, Jwt.Payload(c))
    ensures var header := Some(Scheme + Jwt.Encode(c, signature));
            && Authenticate(header, users, keys, nowMs) == Deny(401, BadToken)
            && AuthenticateAccount(header, db, keys, nowMs) == Deny(401, BadToken)
  {
    var token := Jwt.Encode(c, signature);
    assert token[|Decimal(signature)|] == '.';
    BearerRoundTrip(token);
    Jwt.ForgedTokenInvalid(c, signature, keys, nowMs);
  }

  /**
   * The middleware as written admits a token only when the User collection
   * holds its id: a token the routes issued for a vendor or supplier
   * account whose id no User document has is refused as naming no user.
   */
  lemma RouteTokenRejected(users: Collection, a: Account, issuedMs: nat, nowMs: nat, keys: Jwt.Keys)
    requires keys.secret != "" && nowMs / 1000 < issuedMs / 1000 + Jwt.Week
    requires forall i :: 0 <= i < |users| ==> users[i].id != a.id
    ensures Authenticate(Some(Scheme + Jwt.Issue(Decimal(a.id), issuedMs, keys).value), users, keys, nowMs)
            == Deny(401, UnknownUser)
  {
    IssuedTokenId(a.id, issuedMs, nowMs, keys);
  }

  /**
   * Resolving against the routes' collections, a token issued for an
   * active stored account authenticates as that account for seven days.
   */
  lemma RouteTokenAccepted(db: Routes.Db, a: Account, r: Accounts.Role, issuedMs: nat, nowMs: nat, keys: Jwt.Keys)
    requires Routes.DbValid(db) && a in Routes.Coll(db, r) && a.isActive
    requires keys.secret != "" && nowMs / 1000 < issuedMs / 1000 + Jwt.Week
    ensures AuthenticateAccount(Some(Scheme + Jwt.Issue(Decimal(a.id), issuedMs, keys).value), db, keys, nowMs)
            == Next(a)
  {
    IssuedTokenId(a.id, issuedMs, nowMs, keys);
    var c := Routes.Coll(db, r);
    var k :| 0 <= k < |c| && c[k] == a;
    FoundById(c, k);
    if r == Supplier {
      assert FindById(db.vendors, a.id).None?;
    }
  }

  /**
   * The tokens the demo server hands out are not signed tokens: presented
   * as a bearer token, one is refused as invalid whatever the keys.
   */
  lemma DemoTokenRejected(issued: nat, users: Collection, keys: Jwt.Keys, nowMs: nat)
    ensures Authenticate(Some(Scheme + DemoServer.DemoToken(issued)), users, keys, nowMs) == Deny(401, BadToken)
  {
    var token := DemoServer.DemoToken(issued);
    BearerRoundTrip(token);
    assert Cut(token, '.').None?;
    assert Jwt.Decode(token).None?;
  }

  /** With unique ids, the document at `k` is the one `findById` returns for its id. */
  lemma FoundById(c: Collection, k: nat)
    requires IdsUnique(c) && k < |c|
    ensures FindById(c, c[k].id) == Some(c[k])
  {
    var j := IndexOfId(c, c[k].id);
    assert j <= k;
  }

  /** `authorizeRole(...roles)`: the authenticated account's `role` must be one of `roles`. */
  function AuthorizeRole(roles: seq<string>, user: Option<Account>): (g: Gate)
    ensures g.Next? <==> user.Some? && RoleOf(user.value).Some? && RoleOf(user.value).value in roles
    ensures g.Next? ==> g.user == user.value
    ensures user.None? ==> g == Deny(401, LoginRequired)
    ensures user.Some? && !g.Next? ==> g == Deny(403, "Access denied. Required role: " + Join(roles, " or "))
  {
    match user
    case None => Deny(401, LoginRequired)
    case Some(u) =>
      if RoleOf(u).None? || RoleOf(u).value !in roles then
        Deny(403, "Access denied. Required role: " + Join(roles, " or "))
      else Next(u)
  }

  /**
   * Vendor and supplier documents have no `role` path, so `authorizeRole`
   * forbids them whatever roles it allows.
   */
  lemma AccountsWithoutRoleForbidden(roles: seq<string>, a: Account)
    requires !a.profile.UserProfile?
    ensures AuthorizeRole(roles, Some(a)).Deny? && AuthorizeRole(roles, Some(a)).status == 403
  {
  }

  /**
   * The two middlewares in a row: an active User document holding `id`,
   * presenting a fresh token, passes `authorizeRole` exactly when its role
   * is allowed.
   */
  lemma AuthenticateThenAuthorize(users: Collection, k: nat, roles: seq<string>, issuedMs: nat, nowMs: nat, keys: Jwt.Keys)
    requires IdsUnique(users) && k < |users| && users[k].isActive && users[k].profile.UserProfile?
    requires keys.secret != "" && nowMs / 1000 < issuedMs / 1000 + Jwt.Week
    ensures var header := Some(Scheme + Jwt.Issue(Decimal(users[k].id), issuedMs, keys).value);
            var g := Authenticate(header, users, keys, nowMs);
            && g == Next(users[k])
            && (AuthorizeRole(roles, Some(g.user)).Next?
                <==> users[k].profile.role.Some? && users[k].profile.role.value in roles)
  {
    IssuedTokenId(users[k].id, issuedMs, nowMs, keys);
    FoundById(users, k);
  }
}

=== FILE: ordering.dfy ===
/**
 * Newest-first ordering by a numeric key: the `sort({ createdAt: -1 })` of
 * a query and the `(a, b) => b.createdAt - a.createdAt` comparator of
 * `Array.prototype.sort`. The sort is an insertion sort that keeps equal
 * keys in their original order, as the (stable) JavaScript sort does.
 */
module Ordering {

  ghost predicate Descending<T>(s: seq<T>, key: T -> int) {
    forall i, j :: 0 <= i < j < |s| ==> key(s[i]) >= key(s[j])
  }

  /** The elements of `s` whose key is `k`, in their order in `s`. */
  function WithKey<T>(s: seq<T>, key: T -> int, k: int): seq<T> {
    if s == [] then []
    else (if key(s[0]) == k then [s[0]] else []) + WithKey(s[1..], key, k)
  }

  /** Places `x` in front of the first element whose key is not larger. */
  function InsertDesc<T(==)>(x: T, s: seq<T>, key: T -> int): (r: seq<T>)
    requires Descending(s, key)
    ensures forall i :: 0 <= i < |r| ==> r[i] == x || r[i] in s
    ensures Descending(r, key)
  {
    if s == [] || key(s[0]) <= key(x) then [x] + s
    else [s[0]] + InsertDesc(x, s[1..], key)
  }

  lemma {:induction false} InsertDescPermutes<T>(x: T, s: seq<T>, key: T -> int)
    requires Descending(s, key)
    ensures multiset(InsertDesc(x, s, key)) == multiset(s) + multiset{x}
  {
    if s != [] && key(s[0]) > key(x) {
      InsertDescPermutes(x, s[1..], key);
      assert s == [s[0]] + s[1..];
    }
  }

  /** An inserted element goes in front of every element with the same key. */
  lemma {:induction false} InsertDescWithKey<T>(x: T, s: seq<T>, key: T -> int, k: int)
    requires Descending(s, key)
    ensures WithKey(InsertDesc(x, s, key), key, k) == (if key(x) == k then [x] else []) + WithKey(s, key, k)
  {
    if s == [] || key(s[0]) <= key(x) {
      assert ([x] + s)[1..] == s;
    } else {
      var r := [s[0]] + InsertDesc(x, s[1..], key);
      assert r[1..] == InsertDesc(x, s[1..], key);
      InsertDescWithKey(x, s[1..], key, k);
    }
  }

  /** The elements of `s`, newest (largest key) first; equal keys keep their order. */
  function SortDesc<T(==)>(s: seq<T>, key: T -> int): (r: seq<T>)
    ensures Descending(r, key)
    ensures multiset(r) == multiset(s)
    ensures forall k :: WithKey(r, key, k) == WithKey(s, key, k)
  {
    if s == [] then []
    else
      var rest := SortDesc(s[1..], key);
      InsertDescPermutes(s[0], rest, key);
      forall k ensures WithKey(InsertDesc(s[0], rest, key), key, k) == WithKey(s, key, k) {
        InsertDescWithKey(s[0], rest, key, k);
      }
      assert s == [s[0]] + s[1..];
      InsertDesc(s[0], rest, key)
  }
}

=== FILE: patterns.dfy ===
/**
 * The field patterns of the schemas and of the request validators:
 * the phone pattern `^[\+]?[1-9][\d]{0,15}$` (Vendor.js, models/Supplier.js,
 * models/User.js, routes/auth.js), the GSTIN pattern of Vendor.js, the
 * schemas' email pattern `^\w+([.-]?\w+)*@\w+([.-]?\w+)*(\.\w{2,3})+$`, and
 * a shape check standing in for the validator library's `isEmail`.
 */
module Patterns {
  import opened Text

  /** `^[\+]?[1-9][\d]{0,15}$`: an optional plus, a non-zero digit, then at most fifteen digits. */
  predicate IsPhone(s: string) {
    var body := if 0 < |s| && s[0] == '+' then s[1..] else s;
    1 <= |body| <= 16 && '1' <= body[0] <= '9' && AllDigits(body)
  }

  /** Every accepted phone number is 1 to 17 characters of `+` and digits. */
  lemma PhoneShape(s: string)
    requires IsPhone(s)
    ensures 1 <= |s| <= 17 && NoSpace(s)
    ensures forall i :: 0 <= i < |s| ==> IsDigit(s[i]) || (i == 0 && s[i] == '+')
  {
    if s[0] == '+' {
      assert forall i :: 1 <= i < |s| ==> s[i] == s[1..][i - 1];
    }
  }

  predicate AllUpper(s: string) {
    forall i :: 0 <= i < |s| ==> IsUpper(s[i])
  }

  /**
   * `^[0-9]{2}[A-Z]{5}[0-9]{4}[A-Z]{1}[1-9A-Z]{1}Z[0-9A-Z]{1}$`: a state code,
   * a PAN (five letters, four digits, one letter), an entity digit or letter,
   * the literal `Z` and a check character.
   */
  predicate IsGst(s: string) {
    && |s| == 15
    && AllDigits(s[0..2]) && AllUpper(s[2..7]) && AllDigits(s[7..11]) && IsUpper(s[11])
    && (('1' <= s[12] <= '9') || IsUpper(s[12]))
    && s[13] == 'Z'
    && (IsDigit(s[14]) || IsUpper(s[14]))
  }

  /** Every accepted GSTIN is fifteen upper-case letters and digits with `Z` in position 14. */
  lemma GstShape(s: string)
    requires IsGst(s)
    ensures |s| == 15 && s[13] == 'Z' && NoSpace(s)
    ensures forall i :: 0 <= i < |s| ==> IsDigit(s[i]) || IsUpper(s[i])
  {
    assert forall i :: 0 <= i < 2 ==> s[i] == s[0..2][i];
    assert forall i :: 2 <= i < 7 ==> s[i] == s[2..7][i - 2];
    assert forall i :: 7 <= i < 11 ==> s[i] == s[7..11][i - 7];
  }

  predicate IsSep(c: char) { c == '.' || c == '-' }

  /** Position `i` of a `\w+([.-]?\w+)*` run: a word character, or one separator between two. */
  predicate DottedAt(s: string, i: int)
    requires 0 <= i < |s|
  {
    || IsWordChar(s[i])
    || (IsSep(s[i]) && 0 < i < |s| - 1 && IsWordChar(s[i - 1]) && IsWordChar(s[i + 1]))
  }

  /**
   * The language of `\w+([.-]?\w+)*`: word runs joined by single dots or
   * hyphens, so it starts and ends with a word character.
   */
  predicate Dotted(s: string) {
    0 < |s| && forall i :: 0 <= i < |s| ==> DottedAt(s, i)
  }

  /** The language of `(\.\w{2,3})+`: one or more dot-led labels of two or three word characters. */
  predicate TldRun(t: string)
    decreases |t|
  {
    && 3 <= |t| && t[0] == '.' && IsWordChar(t[1]) && IsWordChar(t[2])
    && (|| |t| == 3
        || (t[3] == '.' && TldRun(t[3..]))
        || (IsWordChar(t[3]) && (|t| == 4 || (t[4] == '.' && TldRun(t[4..])))))
  }

  predicate DomainSplit(d: string, j: int)
    requires 0 < j < |d|
  {
    Dotted(d[..j]) && TldRun(d[j..])
  }

  /** `\w+([.-]?\w+)*(\.\w{2,3})+`, the part after the `@`. */
  predicate IsDomain(d: string) {
    exists j :: 0 < j < |d| && DomainSplit(d, j)
  }

  predicate EmailSplit(s: string, k: int)
    requires 0 < k < |s|
  {
    s[k] == '@' && Dotted(s[..k]) && IsDomain(s[k + 1..])
  }

  /** The schemas' email pattern `^\w+([.-]?\w+)*@\w+([.-]?\w+)*(\.\w{2,3})+$`. */
  predicate IsSchemaEmail(s: string) {
    exists k :: 0 < k < |s| && EmailSplit(s, k)
  }

  lemma {:induction false} TldRunChars(t: string)
    requires TldRun(t)
    ensures forall i :: 0 <= i < |t| ==> IsWordChar(t[i]) || t[i] == '.'
    decreases |t|
  {
    if |t| > 3 && t[3] == '.' && TldRun(t[3..]) {
      TldRunChars(t[3..]);
      assert forall i :: 3 <= i < |t| ==> t[i] == t[3..][i - 3];
    } else if |t| > 4 && IsWordChar(t[3]) && t[4] == '.' && TldRun(t[4..]) {
      TldRunChars(t[4..]);
      assert forall i :: 4 <= i < |t| ==> t[i] == t[4..][i - 4];
    }
  }

  lemma DomainChars(d: string)
    requires IsDomain(d)
    ensures forall i :: 0 <= i < |d| ==> IsWordChar(d[i]) || IsSep(d[i])
  {
    var j :| 0 < j < |d| && DomainSplit(d, j);
    TldRunChars(d[j..]);
    assert forall i :: 0 <= i < j ==> d[i] == d[..j][i] && DottedAt(d[..j], i);
    assert forall i :: j <= i < |d| ==> d[i] == d[j..][i - j];
  }

  /**
   * An address the schema pattern accepts is made of word characters,
   * dots, hyphens and exactly one `@`: no white space can survive in it.
   */
  lemma SchemaEmailShape(s: string)
    requires IsSchemaEmail(s)
    ensures NoSpace(s)
    ensures exists k :: 0 < k < |s| - 1 && s[k] == '@' && '@' !in s[..k] && '@' !in s[k + 1..]
  {
    var k :| 0 < k < |s| && EmailSplit(s, k);
    var local, domain := s[..k], s[k + 1..];
    DomainChars(domain);
    assert forall i :: 0 <= i < k ==> s[i] == local[i] && DottedAt(local, i);
    assert forall i :: k < i < |s| ==> s[i] == domain[i - k - 1];
    assert '@' !in local;
    assert '@' !in domain;
  }

  /** Two dots in a row at position `i`: an empty label. */
  predicate EmptyLabelAt(d: string, i: int)
    requires 0 <= i < |d| - 1
  {
    d[i] == '.' && d[i + 1] == '.'
  }

  /** A host name with at least one dot, no empty label and a final label of two or more characters. */
  predicate IsHostName(d: string) {
    && 4 <= |d|
    && d[0] != '.' && d[|d| - 1] != '.' && d[|d| - 2] != '.'
    && '.' in d
    && forall i :: 0 <= i < |d| - 1 ==> !EmptyLabelAt(d, i)
  }

  /**
   * Stand-in for the validator library's `isEmail`: one `@` after a
   * non-empty local part, a host name after it, and no white space.
   */
  predicate LooksLikeEmail(s: string) {
    var k := IndexOf(s, '@');
    0 < k < |s| && NoSpace(s) && '@' !in s[k + 1..] && IsHostName(s[k + 1..])
  }
}

=== FILE: routes.dfy ===
/**
 * The `/api/auth` router: `POST /signup`, `POST /signin` and the first
 * `GET /users` handler, over a database that holds the vendor and the
 * supplier collections. A handler returns the response it sends and the
 * database it leaves behind; `Crash` is a handler that throws from its own
 * `catch` block and so never answers.
 */
module Routes {
  import opened Common
  import opened Text
  import opened Patterns
  import opened Bcrypt
  import Jwt
  import opened Accounts
  import opened Store
  import opened Ordering
  import opened Http

  /** The two collections, and the next `_id` to hand out (ids are unique across the database). */
  datatype Db = Db(vendors: Collection, suppliers: Collection, nextId: nat)

  /** The collection a role's documents live in. */
  function Coll(db: Db, r: Role): Collection {
    match r
    case Vendor => db.vendors
    case Supplier => db.suppliers
  }

  function WithColl(db: Db, r: Role, c: Collection): (db': Db)
    ensures Coll(db', r) == c && Coll(db', Other(r)) == Coll(db, Other(r)) && db'.nextId == db.nextId
  {
    match r
    case Vendor => db.(vendors := c)
    case Supplier => db.(suppliers := c)
  }

  function Other(r: Role): (o: Role)
    ensures o != r
  {
    match r
    case Vendor => Supplier
    case Supplier => Vendor
  }

  /** Every document of `c` is a well-formed `r` document, stored with a lower-case email and an issued id. */
  predicate Holds(c: Collection, r: Role, nextId: nat) {
    && WellFormed(c)
    && forall i :: 0 <= i < |c| ==> ProfileOf(c[i].profile, r) && IsLowerCase(c[i].email) && c[i].id < nextId
  }

  /** What every handler keeps true of the database. */
  predicate DbValid(db: Db) {
    && Holds(db.vendors, Vendor, db.nextId)
    && Holds(db.suppliers, Supplier, db.nextId)
    && forall i, j :: 0 <= i < |db.vendors| && 0 <= j < |db.suppliers| ==> db.vendors[i].id != db.suppliers[j].id
  }

  /**
   * What a handler reads from outside: three readings of `Date.now()` (when
   * the document is built, in the `updatedAt` hook after the hash, and in
   * `jwt.sign`), the salt the next hash draws, and the token keys.
   */
  datatype Env = Env(now: nat, savedAt: nat, signedAt: nat, salt: nat, keys: Jwt.Keys)

  /** One entry of the `/users` listing: the document without its password, tagged with its role. */
  datatype Listed = Listed(user: Public, role: Role)

  datatype Counts = Counts(vendors: nat, suppliers: nat, total: nat)

  datatype Body =
    | NoData
    | Errors(fields: seq<Field>)
    | Session(user: Public, role: Option<Role>, token: string)
    | Directory(users: seq<Listed>, counts: Counts)

  datatype Response = Reply(status: nat, message: string, body: Body) | Crash

  datatype Outcome = Outcome(response: Response, db: Db)

  const ValidationFailed := "Validation failed"
  const InternalError := "Internal server error"
  const Registered := "User registered successfully"
  const InvalidCredentials := "Invalid email or password"
  const Deactivated := "Account is deactivated. Please contact support."
  const LoggedIn := "Login successful"
  const UsersRetrieved := "Users retrieved successfully"

  /** The role name with its first letter capitalised. */
  function Title(r: Role): string {
    match r
    case Vendor => "Vendor"
    case Supplier => "Supplier"
  }

  function DuplicateMessage(r: Role): string {
    Title(r) + " with this email already exists"
  }

  /** `[f]` when the check of `f` failed, `[]` when it passed. */
  function Check(ok: bool, f: Field): (r: seq<Field>)
    ensures forall g :: g in r <==> !ok && g == f
  {
    if ok then [] else [f]
  }

  /** The check `validateSignup` attaches to a field of the sign-up body. */
  predicate SignupFieldOk(req: SignupRequest, f: Field) {
    match f
    case Name => 2 <= ValidatorLength(Trim(req.name)) <= 50
    case Email => LooksLikeEmail(req.email)
    case Phone => IsPhone(req.phone)
    case Password => 6 <= ValidatorLength(req.password)
    case RoleField => ParseRole(req.role).Some?
    case _ => true
  }

  /**
   * The `validateSignup` chain: the fields whose validator fails, in chain
   * order. `name` is checked after trimming, `email` before normalising.
   */
  function ValidateSignup(req: SignupRequest): (errors: seq<Field>)
    ensures forall f :: f in errors <==> !SignupFieldOk(req, f)
  {
    Check(SignupFieldOk(req, Name), Name)
    + Check(SignupFieldOk(req, Email), Email)
    + Check(SignupFieldOk(req, Phone), Phone)
    + Check(SignupFieldOk(req, Password), Password)
    + Check(SignupFieldOk(req, RoleField), RoleField)
  }

  /**
   * `isLength` does not count a presentation selector: a password of six
   * characters ending in U+FE0F is refused as too short, and nothing is
   * written, although the schema's `minlength`, which counts `length`,
   * would accept it.
   */
  lemma SelectorPasswordRefused(req: SignupRequest, db: Db, env: Env)
    requires req.password == "abcde\U{FE0F}"
    ensures Password in ValidateSignup(req)
    ensures Signup(req, db, env) == Outcome(Reply(400, ValidationFailed, Errors(ValidateSignup(req))), db)
    ensures Utf16Length(req.password) == 6
  {
    var p := req.password;
    assert Selectors(p[6..]) == 0 && Utf16Length(p[6..]) == 0;
    for k := 6 downto 0
      invariant Selectors(p[k..]) == (if k == 6 then 0 else 1) && Utf16Length(p[k..]) == 6 - k
    {
      assert p[k..][1..] == p[k + 1..];
    }
    assert p[0..] == p;
  }

  /** The model the handler picks: `role === 'vendor' ? Vendor : Supplier`. */
  function RequestedRole(req: SignupRequest): Role {
    if req.role == "vendor" then Vendor else Supplier
  }

  /**
   * What the sanitizers leave of a body that passed `validateSignup`: a
   * trimmed name that `isLength` counts as 2 to 50 long, a lower-case email
   * without white space, a phone number the pattern accepts, a password
   * that `isLength` counts as six or more long.
   */
  predicate Sanitised(name: string, email: string, phone: string, password: string) {
    && 2 <= ValidatorLength(name) <= 50 && Trim(name) == name
    && NoSpace(email) && IsLowerCase(email)
    && IsPhone(phone) && 6 <= ValidatorLength(password)
  }

  /**
   * The two schema validators a sanitised draft can still fail: the email
   * pattern, stricter than `isEmail`, and the name's `maxlength`, which
   * counts UTF-16 code units where `isLength` counts a surrogate pair once
   * and skips presentation selectors.
   */
  predicate SchemaAccepts(name: string, email: string) {
    IsSchemaEmail(email) && Utf16Length(name) <= 50
  }

  /** A body that passes the validators is sanitised into the values the handler goes on with. */
  lemma ValidatedIsSanitised(req: SignupRequest)
    requires ValidateSignup(req) == []
    ensures Sanitised(Trim(req.name), ToLower(req.email), req.phone, req.password)
    ensures ParseRole(req.role) == Some(RequestedRole(req))
  {
    assert SignupFieldOk(req, Name) && SignupFieldOk(req, Email) && SignupFieldOk(req, Phone);
    assert SignupFieldOk(req, Password) && SignupFieldOk(req, RoleField);
    TrimIdempotent(req.name);
    forall i | 0 <= i < |req.email|
      ensures !IsSpace(ToLower(req.email)[i])
    {
      LowerKeepsSpace(req.email[i]);
    }
  }

  /** The document `new UserModel({ name, email, phone, password })` builds. */
  function Draft(name: string, email: string, phone: string, password: string, role: Role, id: nat, now: nat): Account {
    NewAccount(id, name, email, phone, password, DefaultProfile(role), now)
  }

  /**
   * The setters leave sanitised values as they are: the draft holds the
   * name, email and phone as sanitised, the plaintext password still to be
   * hashed and the default profile of the role (profile fields in the body
   * are never read).
   */
  lemma DraftShape(name: string, email: string, phone: string, password: string, role: Role, id: nat, now: nat)
    requires Sanitised(name, email, phone, password)
    ensures Draft(name, email, phone, password, role, id, now)
            == Account(id, name, email, phone, Plain(password), DefaultProfile(role), true, now, now)
  {
    PhoneShape(phone);
    TrimNoSpace(phone);
    TrimNoSpace(email);
    ToLowerOfLowerCase(email);
    assert CastProfile(DefaultProfile(role)) == DefaultProfile(role);
  }

  /**
   * Every schema validator accepts a sanitised draft except possibly the
   * email pattern and the name's `maxlength`; the password's `minlength`
   * holds because `isLength` never counts more than `length`.
   */
  lemma DraftFitsSchema(name: string, email: string, phone: string, password: string, role: Role, id: nat, now: nat)
    requires Sanitised(name, email, phone, password)
    ensures forall f :: f != Email && f != Name ==> FieldOk(Draft(name, email, phone, password, role, id, now), f)
    ensures FieldOk(Draft(name, email, phone, password, role, id, now), Name) <==> Utf16Length(name) <= 50
    ensures Valid(Draft(name, email, phone, password, role, id, now)) <==> SchemaAccepts(name, email)
  {
    var d := Draft(name, email, phone, password, role, id, now);
    DraftShape(name, email, phone, password, role, id, now);
    assert Utf16Length(password) >= 6;
    forall f | f != Email && f != Name
      ensures FieldOk(d, f)
    {
    }
    assert FieldOk(d, Email) <==> IsSchemaEmail(email);
    assert FieldOk(d, Name) <==> Utf16Length(name) <= 50;
  }

  /**
   * The handler once its validators passed, with the sanitised values. The
   * duplicate check reads the snapshot `seen`; the save goes to `db`, which
   * another request may have changed in between. `catchSeesRole` says
   * whether the `catch` block can build its message from the request's
   * role; as written it cannot (see `SignupAsWritten`).
   */
  function Register(name: string, email: string, phone: string, password: string, role: Role,
                    seen: Db, db: Db, env: Env, catchSeesRole: bool): (o: Outcome)
    ensures o.response.Crash? || o.response.status in {400, 409} ==> o.db == db
    ensures o.response.Crash? ==> !catchSeesRole
    ensures o.response.Reply? && o.response.status == 201 ==> o.response.body.Session?
  {
    if FindByEmail(Coll(seen, role), email).Some? then
      Outcome(Reply(409, DuplicateMessage(role), NoData), db)
    else
      var (response, saved) :=
        Persist(Coll(db, role), Draft(name, email, phone, password, role, db.nextId, env.now), role, env, catchSeesRole);
      Outcome(response, if saved.Some? then WithColl(db, role, saved.value).(nextId := db.nextId + 1) else db)
  }

  /**
   * The save of the draft and the token for it: the reply, and the
   * collection as saved when the save went through (a missing secret
   * answers 500 only after the document was written).
   */
  function Persist(c: Collection, draft: Account, role: Role, env: Env, catchSeesRole: bool): (r: (Response, Option<Collection>))
    ensures r.1.Some? <==> Insert(c, draft, env.savedAt, env.salt).Success?
    ensures r.1.Some? ==> r.1.value == Insert(c, draft, env.savedAt, env.salt).value.0
    ensures r.0.Crash? || r.0.status in {400, 409} ==> r.1.None?
    ensures r.0.Crash? ==> !catchSeesRole
    ensures r.0.Reply? && r.0.status == 201 ==> r.0.body.Session? && r.1.Some? && env.keys.secret != ""
  {
    match Insert(c, draft, env.savedAt, env.salt)
    case Failure(ValidationError(fields)) => (Reply(400, ValidationFailed, Errors(fields)), None)
    case Failure(_) =>
      // the unique index refused the document (error code 11000)
      (if catchSeesRole then Reply(409, DuplicateMessage(role), NoData) else Crash, None)
    case Success((c', stored)) =>
      match Jwt.Issue(Decimal(stored.id), env.signedAt, env.keys)
      case None => (Reply(500, InternalError, NoData), Some(c'))
      case Some(token) => (Reply(201, Registered, Session(ToJson(stored), None, token)), Some(c'))
  }

  /** A save that goes through with a secret to sign with answers 201 with the stored document. */
  lemma PersistSuccess(c: Collection, draft: Account, role: Role, env: Env, catchSeesRole: bool)
    requires Insert(c, draft, env.savedAt, env.salt).Success? && env.keys.secret != ""
    ensures var stored := Prepare(draft, env.savedAt, env.salt);
            Persist(c, draft, role, env, catchSeesRole)
            == (Reply(201, Registered, Session(ToJson(stored), None, Jwt.Issue(Decimal(stored.id), env.signedAt, env.keys).value)),
                Some(c + [stored]))
  {
  }

  /** Only a refusal by the unique index reaches the `catch` block's duplicate branch. */
  lemma PersistWithoutClash(c: Collection, draft: Account, role: Role, env: Env)
    requires !Clashes(c, draft)
    ensures Persist(c, draft, role, env, false) == Persist(c, draft, role, env, true)
  {
  }

  /** The sign-up handler: the validator chain, then `Register` with the sanitised body. */
  function SignupFlow(req: SignupRequest, seen: Db, db: Db, env: Env, catchSeesRole: bool): (o: Outcome)
    ensures ValidateSignup(req) != [] ==> o == Outcome(Reply(400, ValidationFailed, Errors(ValidateSignup(req))), db)
    ensures o.response.Reply? && o.response.status == 201 ==> o.response.body.Session? && ValidateSignup(req) == []
  {
    var errors := ValidateSignup(req);
    if errors != [] then Outcome(Reply(400, ValidationFailed, Errors(errors)), db)
    else Register(Trim(req.name), ToLower(req.email), req.phone, req.password, RequestedRole(req),
                  seen, db, env, catchSeesRole)
  }

  /** `POST /signup` with the duplicate-key branch answering 409. */
  function Signup(req: SignupRequest, db: Db, env: Env): (o: Outcome)
    ensures o.response.Reply?
    ensures o.response.status == 201 ==> o.response.body.Session?
  {
    SignupFlow(req, db, db, env, true)
  }

  /** `POST /signup` when another request saved between the duplicate check and the save. */
  function SignupRace(req: SignupRequest, seen: Db, db: Db, env: Env): (o: Outcome)
    ensures o.response.Reply?
  {
    SignupFlow(req, seen, db, env, true)
  }

  /** The handler as written: its `catch` block names `role`, which is scoped to the `try` block. */
  function SignupAsWritten(req: SignupRequest, seen: Db, db: Db, env: Env): Outcome {
    SignupFlow(req, seen, db, env, false)
  }

  /** The check `validateSignin` attaches to a field of the sign-in body. */
  predicate SigninFieldOk(req: SigninRequest, f: Field) {
    match f
    case Email => LooksLikeEmail(req.email)
    case Password => req.password != ""
    case _ => true
  }

  /** The `validateSignin` chain. */
  function ValidateSignin(req: SigninRequest): (errors: seq<Field>)
    ensures forall f :: f in errors <==> !SigninFieldOk(req, f)
  {
    Check(SigninFieldOk(req, Email), Email) + Check(SigninFieldOk(req, Password), Password)
  }

  /** The account sign-in resolves an email to: the vendor collection first, then the supplier one. */
  function Lookup(db: Db, email: string): (r: Option<(Account, Role)>)
    ensures r.Some? ==> r.value.0 in Coll(db, r.value.1) && r.value.0.email == ToLower(email)
    ensures r.None? <==> FindByEmail(db.vendors, email).None? && FindByEmail(db.suppliers, email).None?
    ensures FindByEmail(db.vendors, email).Some? ==> r == Some((FindByEmail(db.vendors, email).value, Vendor))
  {
    match FindByEmail(db.vendors, email)
    case Some(v) => Some((v, Vendor))
    case None =>
      match FindByEmail(db.suppliers, email)
      case Some(s) => Some((s, Supplier))
      case None => None
  }

  /** `POST /signin`; it never writes. */
  function Signin(req: SigninRequest, db: Db, env: Env): (r: Response)
    ensures r.Reply? && r.status in {200, 400, 401, 500}
    ensures r.status == 200 ==> r.body.Session? && r.body.role.Some?
    ensures ValidateSignin(req) != [] ==> r == Reply(400, ValidationFailed, Errors(ValidateSignin(req)))
    ensures r.status == 400 ==> ValidateSignin(req) != []
    ensures r.status == 500 ==> r == Reply(500, InternalError, NoData)
    ensures r.status == 500 <==> && ValidateSignin(req) == [] && Lookup(db, ToLower(req.email)).Some?
                                 && Lookup(db, ToLower(req.email)).value.0.isActive
                                 && ComparePassword(Lookup(db, ToLower(req.email)).value.0, req.password)
                                 && env.keys.secret == ""
  {
    var errors := ValidateSignin(req);
    if errors != [] then Reply(400, ValidationFailed, Errors(errors))
    else
      match Lookup(db, ToLower(req.email))
      case None => Reply(401, InvalidCredentials, NoData)
      case Some((user, role)) =>
        if !user.isActive then Reply(401, Deactivated, NoData)
        else if !ComparePassword(user, req.password) then Reply(401, InvalidCredentials, NoData)
        else
          match Jwt.Issue(Decimal(user.id), env.signedAt, env.keys)
          case None => Reply(500, InternalError, NoData)
          case Some(token) => Reply(200, LoggedIn, Session(ToJson(user), Some(role), token))
  }

  /** Appending a well-formed document with the next id to a role's collection keeps the invariant. */
  lemma AppendKeepsValid(db: Db, role: Role, x: Account)
    requires DbValid(db) && WellFormed(Coll(db, role) + [x])
    requires ProfileOf(x.profile, role) && IsLowerCase(x.email) && x.id == db.nextId
    ensures DbValid(WithColl(db, role, Coll(db, role) + [x]).(nextId := db.nextId + 1))
  {
    var c := Coll(db, role);
    var c' := c + [x];
    assert forall i :: 0 <= i < |c| ==> c'[i] == c[i];
    assert Holds(c', role, db.nextId + 1);
  }

  /** A registration that changed the database appended the saved draft to the role's collection. */
  lemma RegisterSaved(name: string, email: string, phone: string, password: string, role: Role,
                      seen: Db, db: Db, env: Env, catchSeesRole: bool)
    requires Register(name, email, phone, password, role, seen, db, env, catchSeesRole).db != db
    ensures var r := Insert(Coll(db, role), Draft(name, email, phone, password, role, db.nextId, env.now), env.savedAt, env.salt);
            && r.Success?
            && Register(name, email, phone, password, role, seen, db, env, catchSeesRole).db
               == WithColl(db, role, r.value.0).(nextId := db.nextId + 1)
  {
  }

  lemma RegisterKeepsValid(name: string, email: string, phone: string, password: string, role: Role,
                           seen: Db, db: Db, env: Env, catchSeesRole: bool)
    requires DbValid(db)
    ensures DbValid(Register(name, email, phone, password, role, seen, db, env, catchSeesRole).db)
  {
    if Register(name, email, phone, password, role, seen, db, env, catchSeesRole).db != db {
      RegisterSaved(name, email, phone, password, role, seen, db, env, catchSeesRole);
      var draft := Draft(name, email, phone, password, role, db.nextId, env.now);
      InsertKeepsWellFormed(Coll(db, role), draft, env.savedAt, env.salt);
      var stored := Prepare(draft, env.savedAt, env.salt);
      assert ProfileOf(stored.profile, role) by {
        assert stored.profile == CastProfile(DefaultProfile(role));
      }
      AppendKeepsValid(db, role, stored);
    }
  }

  /**
   * With no concurrent save, a sanitised registration whose email is new to
   * the role's collection never trips the unique index.
   */
  lemma SequentialNoClash(name: string, email: string, phone: string, password: string, role: Role, db: Db, now: nat)
    requires DbValid(db) && Sanitised(name, email, phone, password)
    requires FindByEmail(Coll(db, role), email).None?
    ensures !Clashes(Coll(db, role), Draft(name, email, phone, password, role, db.nextId, now))
  {
    var c := Coll(db, role);
    var draft := Draft(name, email, phone, password, role, db.nextId, now);
    DraftShape(name, email, phone, password, role, db.nextId, now);
    ToLowerOfLowerCase(email);
    assert forall i :: 0 <= i < |c| ==> c[i].email != draft.email && c[i].id != draft.id;
  }

  lemma RegisterSequential(name: string, email: string, phone: string, password: string, role: Role, db: Db, env: Env)
    requires DbValid(db) && Sanitised(name, email, phone, password)
    ensures Register(name, email, phone, password, role, db, db, env, false)
            == Register(name, email, phone, password, role, db, db, env, true)
  {
    if FindByEmail(Coll(db, role), email).None? {
      SequentialNoClash(name, email, phone, password, role, db, env.now);
      PersistWithoutClash(Coll(db, role), Draft(name, email, phone, password, role, db.nextId, env.now), role, env);
    }
  }

  /** A sanitised draft whose email the collection already holds is refused by the unique index. */
  lemma RaceClashes(name: string, email: string, phone: string, password: string, role: Role, db: Db,
                    now: nat, savedAt: nat, salt: nat)
    requires Sanitised(name, email, phone, password) && SchemaAccepts(name, email)
    requires FindByEmail(Coll(db, role), email).Some?
    ensures Insert(Coll(db, role), Draft(name, email, phone, password, role, db.nextId, now), savedAt, salt) == Failure(DuplicateKey)
  {
    var c := Coll(db, role);
    var draft := Draft(name, email, phone, password, role, db.nextId, now);
    DraftFitsSchema(name, email, phone, password, role, db.nextId, now);
    DraftShape(name, email, phone, password, role, db.nextId, now);
    ToLowerOfLowerCase(email);
    var k := IndexOfEmail(c, email);
    assert c[k].email == draft.email;
    assert Clashes(c, draft);
  }

  lemma RegisterRace(name: string, email: string, phone: string, password: string, role: Role,
                     seen: Db, db: Db, env: Env)
    requires Sanitised(name, email, phone, password) && SchemaAccepts(name, email)
    requires FindByEmail(Coll(seen, role), email).None? && FindByEmail(Coll(db, role), email).Some?
    ensures Register(name, email, phone, password, role, seen, db, env, false).response == Crash
    ensures Register(name, email, phone, password, role, seen, db, env, true)
            == Outcome(Reply(409, DuplicateMessage(role), NoData), db)
  {
    RaceClashes(name, email, phone, password, role, db, env.now, env.savedAt, env.salt);
  }

  /** The sequential registration saves exactly when the email is new to the role and fits the schema. */
  lemma RegisterInsert(name: string, email: string, phone: string, password: string, role: Role, db: Db, env: Env)
    requires DbValid(db) && Sanitised(name, email, phone, password)
    ensures var draft := Draft(name, email, phone, password, role, db.nextId, env.now);
            var stored := Prepare(draft, env.savedAt, env.salt);
            var r := Insert(Coll(db, role), draft, env.savedAt, env.salt);
            && (FindByEmail(Coll(db, role), email).None? && SchemaAccepts(name, email)
                ==> r == Success((Coll(db, role) + [stored], stored)))
            && (FindByEmail(Coll(db, role), email).None? && !SchemaAccepts(name, email) ==> r.Failure?)
  {
    DraftFitsSchema(name, email, phone, password, role, db.nextId, env.now);
    if FindByEmail(Coll(db, role), email).None? {
      SequentialNoClash(name, email, phone, password, role, db, env.now);
    }
  }

  /**
   * A sequential registration that answers 201 found the email new and
   * the draft valid, appended the prepared draft to the role's collection
   * and signed a token for its id.
   */
  lemma RegisterSuccess(name: string, email: string, phone: string, password: string, role: Role, db: Db, env: Env)
    requires DbValid(db) && Sanitised(name, email, phone, password)
    requires Register(name, email, phone, password, role, db, db, env, true).response.Reply?
    requires Register(name, email, phone, password, role, db, db, env, true).response.status == 201
    ensures FindByEmail(Coll(db, role), email).None? && SchemaAccepts(name, email) && env.keys.secret != ""
    ensures var stored := Prepare(Draft(name, email, phone, password, role, db.nextId, env.now), env.savedAt, env.salt);
            Register(name, email, phone, password, role, db, db, env, true)
            == Outcome(Reply(201, Registered, Session(ToJson(stored), None, Jwt.Issue(Decimal(stored.id), env.signedAt, env.keys).value)),
                       WithColl(db, role, Coll(db, role) + [stored]).(nextId := db.nextId + 1))
  {
    var c := Coll(db, role);
    var d := Draft(name, email, phone, password, role, db.nextId, env.now);
    assert FindByEmail(c, email).None?;
    assert Register(name, email, phone, password, role, db, db, env, true).response == Persist(c, d, role, env, true).0;
    assert Insert(c, d, env.savedAt, env.salt).Success? && env.keys.secret != "";
    DraftFitsSchema(name, email, phone, password, role, db.nextId, env.now);
    PersistSuccess(c, d, role, env, true);
  }

  /** A sequential registration reads and writes only the collection of its role. */
  lemma RegisterIgnoresOther(name: string, email: string, phone: string, password: string, role: Role,
                             db1: Db, db2: Db, env: Env)
    requires Coll(db1, role) == Coll(db2, role) && db1.nextId == db2.nextId
    ensures Register(name, email, phone, password, role, db1, db1, env, true).response
            == Register(name, email, phone, password, role, db2, db2, env, true).response
  {
  }

  /** Under a sanitised body the handler goes on to `Register` with the sanitised values. */
  lemma SignupRegisters(req: SignupRequest, seen: Db, db: Db, env: Env, catchSeesRole: bool)
    requires ValidateSignup(req) == []
    ensures SignupFlow(req, seen, db, env, catchSeesRole)
            == Register(Trim(req.name), ToLower(req.email), req.phone, req.password, RequestedRole(req),
                        seen, db, env, catchSeesRole)
    ensures Sanitised(Trim(req.name), ToLower(req.email), req.phone, req.password)
    ensures FindByEmail(Coll(seen, RequestedRole(req)), ToLower(req.email)) == FindByEmail(Coll(seen, RequestedRole(req)), req.email)
    ensures FindByEmail(Coll(db, RequestedRole(req)), ToLower(req.email)) == FindByEmail(Coll(db, RequestedRole(req)), req.email)
  {
    ValidatedIsSanitised(req);
    ToLowerIdempotent(req.email);
  }

  /** Every sign-up, interleaved with other saves or not, keeps the database invariant. */
  lemma SignupKeepsValid(req: SignupRequest, seen: Db, db: Db, env: Env, catchSeesRole: bool)
    requires DbValid(db)
    ensures DbValid(SignupFlow(req, seen, db, env, catchSeesRole).db)
  {
    if ValidateSignup(req) == [] {
      SignupRegisters(req, seen, db, env, catchSeesRole);
      RegisterKeepsValid(Trim(req.name), ToLower(req.email), req.phone, req.password, RequestedRole(req),
                         seen, db, env, catchSeesRole);
    }
  }

  /**
   * Without a concurrent save the unique index never fires: the handler as
   * written behaves exactly like the corrected one.
   */
  lemma SequentialSignupAgrees(req: SignupRequest, db: Db, env: Env)
    requires DbValid(db)
    ensures SignupAsWritten(req, db, db, env) == Signup(req, db, env)
  {
    if ValidateSignup(req) == [] {
      SignupRegisters(req, db, db, env, true);
      SignupRegisters(req, db, db, env, false);
      RegisterSequential(Trim(req.name), ToLower(req.email), req.phone, req.password, RequestedRole(req), db, env);
    }
  }

  /**
   * The race the duplicate check leaves open: another request saved the
   * same email after this one looked. The handler as written then throws
   * from its `catch` block and never answers; the corrected one answers 409
   * and writes nothing.
   */
  lemma SignupRaceFinding(req: SignupRequest, seen: Db, db: Db, env: Env)
    requires ValidateSignup(req) == [] && SchemaAccepts(Trim(req.name), ToLower(req.email))
    requires FindByEmail(Coll(seen, RequestedRole(req)), req.email).None?
    requires FindByEmail(Coll(db, RequestedRole(req)), req.email).Some?
    ensures SignupAsWritten(req, seen, db, env).response == Crash
    ensures SignupRace(req, seen, db, env) == Outcome(Reply(409, DuplicateMessage(RequestedRole(req)), NoData), db)
  {
    SignupRegisters(req, seen, db, env, true);
    SignupRegisters(req, seen, db, env, false);
    RegisterRace(Trim(req.name), ToLower(req.email), req.phone, req.password, RequestedRole(req), seen, db, env);
  }

  /**
   * A validated sign-up whose email the role's collection already holds,
   * in any letter case, is refused with 409 and writes nothing.
   */
  lemma SignupRejectsDuplicate(req: SignupRequest, db: Db, env: Env, i: nat)
    requires ValidateSignup(req) == []
    requires i < |Coll(db, RequestedRole(req))| && Coll(db, RequestedRole(req))[i].email == ToLower(req.email)
    ensures Signup(req, db, env) == Outcome(Reply(409, DuplicateMessage(RequestedRole(req)), NoData), db)
  {
    SignupRegisters(req, db, db, env, true);
  }

  /**
   * The duplicate check only consults the collection of the requested
   * role: the other collection has no say, so one email can hold a vendor
   * and a supplier account.
   */
  lemma SignupIgnoresOtherCollection(req: SignupRequest, db1: Db, db2: Db, env: Env)
    requires Coll(db1, RequestedRole(req)) == Coll(db2, RequestedRole(req)) && db1.nextId == db2.nextId
    ensures Signup(req, db1, env).response == Signup(req, db2, env).response
  {
    if ValidateSignup(req) == [] {
      SignupRegisters(req, db1, db1, env, true);
      SignupRegisters(req, db2, db2, env, true);
      RegisterIgnoresOther(Trim(req.name), ToLower(req.email), req.phone, req.password, RequestedRole(req), db1, db2, env);
    }
  }

  /**
   * A sign-up succeeds exactly when the body validates, the role's
   * collection has no account with that email, the normalised email fits
   * the schema's pattern, and a token can be signed.
   */
  lemma SignupSucceedsIff(req: SignupRequest, db: Db, env: Env)
    requires DbValid(db)
    ensures Signup(req, db, env).response.status == 201
            <==> && ValidateSignup(req) == []
                 && FindByEmail(Coll(db, RequestedRole(req)), req.email).None?
                 && SchemaAccepts(Trim(req.name), ToLower(req.email))
                 && env.keys.secret != ""
  {
    if ValidateSignup(req) == [] {
      SignupRegisters(req, db, db, env, true);
      RegisterInsert(Trim(req.name), ToLower(req.email), req.phone, req.password, RequestedRole(req), db, env);
    }
  }

  /** A sign-up that answers 201 went through `Register` with the sanitised body and saved its draft. */
  lemma SignupSaved(req: SignupRequest, db: Db, env: Env)
    requires DbValid(db) && Signup(req, db, env).response.status == 201
    ensures ParseRole(req.role) == Some(RequestedRole(req)) && env.keys.secret != ""
    ensures var role := RequestedRole(req);
            var stored := Prepare(Draft(Trim(req.name), ToLower(req.email), req.phone, req.password, role, db.nextId, env.now),
                                  env.savedAt, env.salt);
            && stored == Account(db.nextId, Trim(req.name), ToLower(req.email), req.phone, stored.password,
                                 DefaultProfile(role), true, env.now, env.savedAt)
            && Compare(req.password, stored.password)
            && Signup(req, db, env)
               == Outcome(Reply(201, Registered, Session(ToJson(stored), None, Jwt.Issue(Decimal(stored.id), env.signedAt, env.keys).value)),
                          WithColl(db, role, Coll(db, role) + [stored]).(nextId := db.nextId + 1))
  {
    var role := RequestedRole(req);
    var name, email := Trim(req.name), ToLower(req.email);
    SignupRegisters(req, db, db, env, true);
    RegisterSuccess(name, email, req.phone, req.password, role, db, env);
    DraftShape(name, email, req.phone, req.password, role, db.nextId, env.now);
    ValidatedIsSanitised(req);
  }

  /**
   * What a successful sign-up stores: one new document at the end of the
   * role's collection, holding the trimmed name, the normalised email, the
   * hashed password and the default profile, found by its email in any
   * case; the other collection is untouched.
   */
  lemma SignupSuccess(req: SignupRequest, db: Db, env: Env)
    requires DbValid(db) && Signup(req, db, env).response.status == 201
    ensures var o := Signup(req, db, env);
            var role := RequestedRole(req);
            var c := Coll(db, role);
            && ParseRole(req.role) == Some(role)
            && o.db.nextId == db.nextId + 1
            && Coll(o.db, Other(role)) == Coll(db, Other(role))
            && |Coll(o.db, role)| == |c| + 1 && Coll(o.db, role)[..|c|] == c
            && var stored := Coll(o.db, role)[|c|];
               && stored.id == db.nextId && stored.name == Trim(req.name)
               && stored.email == ToLower(req.email) && stored.phone == req.phone
               && stored.profile == DefaultProfile(role) && stored.isActive
               && stored.createdAt == env.now && stored.updatedAt == env.savedAt
               && ComparePassword(stored, req.password)
               && FindByEmail(Coll(o.db, role), req.email) == Some(stored)
  {
    var role := RequestedRole(req);
    var c := Coll(db, role);
    var stored := Prepare(Draft(Trim(req.name), ToLower(req.email), req.phone, req.password, role, db.nextId, env.now),
                          env.savedAt, env.salt);
    SignupSaved(req, db, env);
    SignupKeepsValid(req, db, db, env, true);
    var o := Signup(req, db, env);
    assert Coll(o.db, role) == c + [stored];
    ToLowerIdempotent(req.email);
    FindByEmailAnyCase(c + [stored], |c|, req.email);
  }

  /**
   * What a successful sign-up answers: the saved document without its
   * password and a token that verifies to its id for seven days.
   */
  lemma SignupReply(req: SignupRequest, db: Db, env: Env)
    requires DbValid(db) && Signup(req, db, env).response.status == 201
    ensures var o := Signup(req, db, env);
            var c := Coll(db, RequestedRole(req));
            && |Coll(o.db, RequestedRole(req))| == |c| + 1
            && o.response.body.user == ToJson(Coll(o.db, RequestedRole(req))[|c|])
            && o.response.body.role == None
            && Jwt.Verify(o.response.body.token, env.keys, env.signedAt)
               == Jwt.Valid(Jwt.Claims(Decimal(db.nextId), env.signedAt / 1000, env.signedAt / 1000 + Jwt.Week))
  {
    var role := RequestedRole(req);
    var stored := Prepare(Draft(Trim(req.name), ToLower(req.email), req.phone, req.password, role, db.nextId, env.now),
                          env.savedAt, env.salt);
    SignupSaved(req, db, env);
    Jwt.IssueThenVerify(Decimal(stored.id), env.signedAt, env.signedAt, env.keys);
  }


  /** The lookup lower-cases the query itself, so normalising it first changes nothing. */
  lemma LookupIgnoresCase(db: Db, email: string)
    ensures Lookup(db, ToLower(email)) == Lookup(db, email)
  {
    ToLowerIdempotent(email);
    FindByEmailIgnoresCase(db.vendors, ToLower(email), email);
    FindByEmailIgnoresCase(db.suppliers, ToLower(email), email);
  }

  /**
   * A sign-in succeeds exactly when the body validates, an account holds
   * the email, that account is active, the password matches its digest and
   * a token can be signed; the reply then carries the account without its
   * password, its role, and a token that verifies to its id for seven days.
   */
  lemma SigninSucceedsIff(req: SigninRequest, db: Db, env: Env)
    ensures var r := Signin(req, db, env);
            var found := Lookup(db, req.email);
            && (r.status == 200
                <==> && ValidateSignin(req) == [] && found.Some?
                     && found.value.0.isActive && ComparePassword(found.value.0, req.password)
                     && env.keys.secret != "")
            && (r.status == 200 ==>
                  && r.body == Session(ToJson(found.value.0), Some(found.value.1), r.body.token)
                  && Jwt.Verify(r.body.token, env.keys, env.signedAt)
                     == Jwt.Valid(Jwt.Claims(Decimal(found.value.0.id), env.signedAt / 1000, env.signedAt / 1000 + Jwt.Week)))
  {
    LookupIgnoresCase(db, req.email);
    var found := Lookup(db, req.email);
    if ValidateSignin(req) == [] && found.Some? && env.keys.secret != "" {
      Jwt.IssueThenVerify(Decimal(found.value.0.id), env.signedAt, env.signedAt, env.keys);
    }
  }

  /**
   * An unknown email and a wrong password get the same reply, so the reply
   * does not tell whether an account exists; an inactive account is
   * reported as deactivated before its password is looked at.
   */
  lemma SigninFailures(req: SigninRequest, db: Db, env: Env)
    requires ValidateSignin(req) == []
    ensures Lookup(db, req.email).None? ==> Signin(req, db, env) == Reply(401, InvalidCredentials, NoData)
    ensures var found := Lookup(db, req.email);
            found.Some? && found.value.0.isActive && !ComparePassword(found.value.0, req.password)
            ==> Signin(req, db, env) == Reply(401, InvalidCredentials, NoData)
    ensures var found := Lookup(db, req.email);
            found.Some? && !found.value.0.isActive ==> Signin(req, db, env) == Reply(401, Deactivated, NoData)
  {
    LookupIgnoresCase(db, req.email);
  }

  /**
   * When a vendor account holds the email, sign-in never reaches the
   * supplier collection: a supplier account with the same email can never
   * sign in, whatever its password.
   */
  lemma SigninVendorShadowsSupplier(req: SigninRequest, db: Db, env: Env)
    requires FindByEmail(db.vendors, req.email).Some?
    ensures Signin(req, db, env).status == 200
            ==> Signin(req, db, env).body.role == Some(Vendor)
                && Signin(req, db, env).body.user == ToJson(FindByEmail(db.vendors, req.email).value)
  {
    LookupIgnoresCase(db, req.email);
  }

  /**
   * The account a sign-up creates can sign in at once with the same email
   * and password, unless it is a supplier whose email a vendor account
   * already holds.
   */
  lemma SignupThenSignin(req: SignupRequest, db: Db, env: Env, later: Env)
    requires DbValid(db) && Signup(req, db, env).response.status == 201
    requires RequestedRole(req) == Vendor || FindByEmail(db.vendors, req.email).None?
    requires later.keys == env.keys
    ensures var o := Signup(req, db, env);
            var r := Signin(SigninRequest(req.email, req.password), o.db, later);
            && r.status == 200
            && r.body.user == o.response.body.user
            && r.body.role == Some(RequestedRole(req))
  {
    var role := RequestedRole(req);
    var o := Signup(req, db, env);
    var sreq := SigninRequest(req.email, req.password);
    SignupSuccess(req, db, env);
    SignupRegisters(req, db, db, env, true);
    assert SignupFieldOk(req, Email) && SignupFieldOk(req, Password);
    assert SigninFieldOk(sreq, Email) && SigninFieldOk(sreq, Password);
    assert ValidateSignin(sreq) == [];
    SignupReply(req, db, env);
    var stored := Coll(o.db, role)[|Coll(db, role)|];
    if role == Supplier {
      assert Coll(o.db, Vendor) == db.vendors;
    }
    assert Lookup(o.db, req.email) == Some((stored, role));
    SigninSucceedsIff(sreq, o.db, later);
  }

  function CreatedAt(a: Account): int { a.createdAt }

  function ListedAt(l: Listed): int { l.user.createdAt }

  /** Each document of `c`, without its password, tagged with `r`. */
  function Tag(c: Collection, r: Role): (t: seq<Listed>)
    ensures |t| == |c| && forall i :: 0 <= i < |c| ==> t[i] == Listed(ToJson(c[i]), r)
  {
    seq(|c|, i requires 0 <= i < |c| => Listed(ToJson(c[i]), r))
  }

  lemma TagCons(x: Account, s: Collection, r: Role)
    ensures Tag([x] + s, r) == [Listed(ToJson(x), r)] + Tag(s, r)
  {
  }

  lemma TagDescending(s: Collection, r: Role)
    requires Descending(s, CreatedAt)
    ensures Descending(Tag(s, r), ListedAt)
  {
  }

  /** Tagging an element and inserting it commutes with inserting it and tagging the result. */
  lemma {:induction false} TagInsert(x: Account, s: Collection, r: Role)
    requires Descending(s, CreatedAt)
    ensures Descending(Tag(s, r), ListedAt)
    ensures Tag(InsertDesc(x, s, CreatedAt), r) == InsertDesc(Listed(ToJson(x), r), Tag(s, r), ListedAt)
  {
    TagDescending(s, r);
    var t := Tag(s, r);
    if s != [] && CreatedAt(s[0]) > CreatedAt(x) {
      assert ListedAt(t[0]) == CreatedAt(s[0]);
      TagInsert(x, s[1..], r);
      assert Tag(s[1..], r) == t[1..];
      TagCons(s[0], InsertDesc(x, s[1..], CreatedAt), r);
    } else {
      assert s != [] ==> ListedAt(t[0]) == CreatedAt(s[0]);
      TagCons(x, s, r);
    }
  }

  /** Sorting the documents and then tagging them gives the tagged documents sorted. */
  lemma {:induction false} TagSort(c: Collection, r: Role)
    ensures Tag(SortDesc(c, CreatedAt), r) == SortDesc(Tag(c, r), ListedAt)
  {
    if c != [] {
      var rest := SortDesc(c[1..], CreatedAt);
      TagSort(c[1..], r);
      TagInsert(c[0], rest, r);
      assert Tag(c, r)[1..] == Tag(c[1..], r);
    }
  }

  /**
   * `GET /users`: both collections newest first, tagged, merged and sorted
   * newest first again. The listing holds every document of both
   * collections once, with its own role, and no password.
   */
  function ListUsers(db: Db): (r: Response)
    ensures r.Reply? && r.status == 200 && r.body.Directory?
    ensures Descending(r.body.users, ListedAt)
    ensures multiset(r.body.users) == multiset(Tag(db.vendors, Vendor)) + multiset(Tag(db.suppliers, Supplier))
    ensures r.body.counts == Counts(|db.vendors|, |db.suppliers|, |db.vendors| + |db.suppliers|)
  {
    var vendors := SortDesc(db.vendors, CreatedAt);
    var suppliers := SortDesc(db.suppliers, CreatedAt);
    var all := SortDesc(Tag(vendors, Vendor) + Tag(suppliers, Supplier), ListedAt);
    TagSort(db.vendors, Vendor);
    TagSort(db.suppliers, Supplier);
    assert |vendors| == |db.vendors| && |suppliers| == |db.suppliers| by {
      assert |multiset(vendors)| == |multiset(db.vendors)|;
      assert |multiset(suppliers)| == |multiset(db.suppliers)|;
    }
    assert |all| == |vendors| + |suppliers| by {
      assert |multiset(all)| == |multiset(Tag(vendors, Vendor) + Tag(suppliers, Supplier))|;
    }
    Reply(200, UsersRetrieved, Directory(all, Counts(|vendors|, |suppliers|, |all|)))
  }
}

=== FILE: store.dfy ===
/**
 * One collection of account documents in its natural order, with the
 * operations the models use: `findOne` by email or id, `findByEmail`, and
 * `save`, which runs the schema validators, then the two pre-save hooks,
 * then the insert or update the unique indexes on `email` and `_id` guard.
 */
module Store {
  import opened Common
  import opened Text
  import opened Bcrypt
  import opened Accounts

  type Collection = seq<Account>

  predicate EmailsUnique(c: Collection) {
    forall i, j :: 0 <= i < j < |c| ==> c[i].email != c[j].email
  }

  predicate IdsUnique(c: Collection) {
    forall i, j :: 0 <= i < j < |c| ==> c[i].id != c[j].id
  }

  predicate AllHashed(c: Collection) {
    forall i :: 0 <= i < |c| ==> c[i].password.Hashed?
  }

  /** What the unique indexes and the hashing hook guarantee of every stored collection. */
  predicate WellFormed(c: Collection) {
    EmailsUnique(c) && IdsUnique(c) && AllHashed(c)
  }

  /** Position of the first document whose stored email is `email`, or `|c|`. */
  function IndexOfEmail(c: Collection, email: string): (k: nat)
    ensures k <= |c|
    ensures forall i :: 0 <= i < k ==> c[i].email != email
    ensures k < |c| ==> c[k].email == email
  {
    IndexWhere(c, (d: Account) => d.email, email)
  }

  /** `findOne({ email })`: an exact match on the stored value. */
  function Find(c: Collection, email: string): (r: Option<Account>)
    ensures r.None? <==> forall i :: 0 <= i < |c| ==> c[i].email != email
    ensures r.Some? ==> r.value in c && r.value.email == email
  {
    var k := IndexOfEmail(c, email);
    if k < |c| then Some(c[k]) else None
  }

  /** `findByEmail(email)`: the query is lower-cased first, so the lookup ignores ASCII case. */
  function FindByEmail(c: Collection, query: string): (r: Option<Account>)
    ensures r.None? <==> forall i :: 0 <= i < |c| ==> c[i].email != ToLower(query)
    ensures r.Some? ==> r.value in c && r.value.email == ToLower(query)
  {
    Find(c, ToLower(query))
  }

  /** With unique emails, the document found is the one holding that email. */
  lemma FindUnique(c: Collection, i: nat, email: string)
    requires EmailsUnique(c) && i < |c| && c[i].email == email
    ensures Find(c, email) == Some(c[i])
  {
    var k := IndexOfEmail(c, email);
    assert k <= i;
  }

  /** Two queries that differ only in ASCII case find the same document. */
  lemma FindByEmailIgnoresCase(c: Collection, q1: string, q2: string)
    requires ToLower(q1) == ToLower(q2)
    ensures FindByEmail(c, q1) == FindByEmail(c, q2)
  {
  }

  /** A stored document is found by its own email written in any case. */
  lemma FindByEmailAnyCase(c: Collection, i: nat, query: string)
    requires EmailsUnique(c) && i < |c| && IsLowerCase(c[i].email)
    requires ToLower(query) == c[i].email
    ensures FindByEmail(c, query) == Some(c[i])
  {
    FindUnique(c, i, c[i].email);
  }

  /** Position of the first document whose id is `id`, or `|c|`. */
  function IndexOfId(c: Collection, id: nat): (k: nat)
    ensures k <= |c|
    ensures forall i :: 0 <= i < k ==> c[i].id != id
    ensures k < |c| ==> c[k].id == id
  {
    IndexWhere(c, (d: Account) => d.id, id)
  }

  /** `findById(id)`. */
  function FindById(c: Collection, id: nat): (r: Option<Account>)
    ensures r.None? <==> forall i :: 0 <= i < |c| ==> c[i].id != id
    ensures r.Some? ==> r.value in c && r.value.id == id
  {
    var k := IndexOfId(c, id);
    if k < |c| then Some(c[k]) else None
  }

  datatype SaveError =
    | ValidationError(fields: seq<Field>)   // a schema validator failed
    | DuplicateKey                         // MongoDB error code 11000
    | NotFound                             // an update matched no document

  /**
   * The two pre-save hooks: re-hash the password only when it was modified,
   * and set `updatedAt` to the clock. Nothing else is touched; the order of
   * the hooks (User.js runs them the other way round) makes no difference.
   */
  function Prepare(a: Account, now: nat, salt: nat): (r: Account)
    ensures r.password.Hashed? && r.updatedAt == now
    ensures a.password.Hashed? ==> r.password == a.password
    ensures a.password.Plain? ==> Compare(a.password.text, r.password)
    ensures r.(password := a.password, updatedAt := a.updatedAt) == a
  {
    a.(password := HashIfModified(a.password, salt)).(updatedAt := now)
  }

  /** Saving changes neither which paths validate nor the lookup keys. */
  lemma PrepareKeepsValid(a: Account, now: nat, salt: nat)
    requires Valid(a)
    ensures Valid(Prepare(a, now, salt))
  {
    var r := Prepare(a, now, salt);
    forall f
      ensures FieldOk(r, f)
    {
      assert FieldOk(a, f);
    }
  }

  /** Some stored document already holds `a`'s email or id. */
  predicate Clashes(c: Collection, a: Account) {
    exists i | 0 <= i < |c| :: c[i].email == a.email || c[i].id == a.id
  }

  /** `save()` of a new document. */
  function Insert(c: Collection, a: Account, now: nat, salt: nat): (r: Result<(Collection, Account), SaveError>)
    ensures !Valid(a) <==> r == Failure(ValidationError(SchemaErrors(a)))
    ensures Valid(a) && Clashes(c, a) <==> r == Failure(DuplicateKey)
    ensures Valid(a) && !Clashes(c, a) <==> r.Success?
    ensures r.Success? ==> r.value.1 == Prepare(a, now, salt) && r.value.0 == c + [r.value.1]
  {
    var errors := SchemaErrors(a);
    if errors != [] then Failure(ValidationError(errors))
    else if Clashes(c, a) then Failure(DuplicateKey)
    else
      var stored := Prepare(a, now, salt);
      Success((c + [stored], stored))
  }

  /** A successful insert keeps emails and ids unique and every password hashed. */
  lemma InsertKeepsWellFormed(c: Collection, a: Account, now: nat, salt: nat)
    requires WellFormed(c) && Insert(c, a, now, salt).Success?
    ensures WellFormed(Insert(c, a, now, salt).value.0)
  {
    var c' := Insert(c, a, now, salt).value.0;
    assert !Clashes(c, a);
    assert forall i :: 0 <= i < |c| ==> c'[i] == c[i];
    assert c'[|c|] == Prepare(a, now, salt);
  }

  /**
   * After an insert the new document is found by its email, and every
   * other email finds what it found before.
   */
  lemma FindAfterInsert(c: Collection, a: Account, now: nat, salt: nat, email: string)
    requires WellFormed(c) && Insert(c, a, now, salt).Success?
    ensures var (c', stored) := Insert(c, a, now, salt).value;
            Find(c', email) == if email == a.email then Some(stored) else Find(c, email)
  {
    var (c', stored) := Insert(c, a, now, salt).value;
    InsertKeepsWellFormed(c, a, now, salt);
    if email == a.email {
      FindUnique(c', |c|, email);
    } else {
      assert forall i :: 0 <= i < |c| ==> c'[i] == c[i];
      var k := IndexOfEmail(c, email);
      if k < |c| {
        FindUnique(c', k, email);
        FindUnique(c, k, email);
      }
    }
  }

  /** Some document other than the one at `k` already holds `a`'s email. */
  predicate ClashesElsewhere(c: Collection, k: nat, a: Account) {
    exists j | 0 <= j < |c| :: j != k && c[j].email == a.email
  }

  /** `save()` of a document loaded from the collection and then modified. */
  function Update(c: Collection, a: Account, now: nat, salt: nat): (r: Result<(Collection, Account), SaveError>)
    ensures !Valid(a) <==> r == Failure(ValidationError(SchemaErrors(a)))
    ensures Valid(a) && FindById(c, a.id).None? <==> r == Failure(NotFound)
    ensures Valid(a) && FindById(c, a.id).Some?
            ==> (r == Failure(DuplicateKey) <==> ClashesElsewhere(c, IndexOfId(c, a.id), a))
    ensures r.Success? <==> Valid(a) && FindById(c, a.id).Some? && !ClashesElsewhere(c, IndexOfId(c, a.id), a)
    ensures r.Success? ==> var k := IndexOfId(c, a.id);
                           && k < |c| && !ClashesElsewhere(c, k, a)
                           && r.value.1 == Prepare(a, now, salt) && r.value.0 == c[k := r.value.1]
  {
    var errors := SchemaErrors(a);
    var k := IndexOfId(c, a.id);
    if errors != [] then Failure(ValidationError(errors))
    else if k == |c| then Failure(NotFound)
    else if ClashesElsewhere(c, k, a) then Failure(DuplicateKey)
    else
      var stored := Prepare(a, now, salt);
      Success((c[k := stored], stored))
  }

  /** A successful update keeps the collection well formed. */
  lemma UpdateKeepsWellFormed(c: Collection, a: Account, now: nat, salt: nat)
    requires WellFormed(c) && Update(c, a, now, salt).Success?
    ensures WellFormed(Update(c, a, now, salt).value.0)
  {
    var k := IndexOfId(c, a.id);
    var c' := Update(c, a, now, salt).value.0;
    assert forall j :: 0 <= j < |c| && j != k ==> c'[j] == c[j] && c[j].email != a.email;
    assert c'[k].id == c[k].id && c'[k].email == a.email;
  }

  /**
   * Saving a loaded document whose password was not reassigned keeps the
   * stored digest bit for bit, so the old password still signs in; a
   * reassigned one is re-hashed and the new password signs in.
   */
  lemma UpdatePasswordHandling(c: Collection, a: Account, now: nat, salt: nat, candidate: string)
    requires Update(c, a, now, salt).Success?
    ensures var stored := Update(c, a, now, salt).value.1;
            && stored.updatedAt == now
            && (a.password.Hashed? ==> stored.password == a.password
                                       && (ComparePassword(stored, candidate) <==> Compare(candidate, a.password)))
            && (a.password.Plain? ==> ComparePassword(stored, a.password.text))
  {
  }
}

=== FILE: text.dfy ===
/**
 * JavaScript string primitives the schemas and routes rely on: `trim`,
 * `toLowerCase`, `startsWith`, `substring`, decimal rendering of numbers
 * and `Array.prototype.join`. Strings are `seq<char>` and a `char` is a
 * Unicode scalar value; where the original counts UTF-16 code units
 * (`length`), `Utf16Length` counts a character outside the Basic
 * Multilingual Plane twice.
 */
module Text {
  import opened Common

  /** ECMAScript WhiteSpace and LineTerminator code points, the set `String.prototype.trim` strips. */
  predicate IsSpace(c: char) {
    || c == '\t' || c == '\n' || c == '\U{B}' || c == '\U{C}' || c == '\r'
    || c == ' ' || c == '\U{A0}' || c == '\U{1680}'
    || ('\U{2000}' <= c <= '\U{200A}')
    || c == '\U{2028}' || c == '\U{2029}' || c == '\U{202F}' || c == '\U{205F}'
    || c == '\U{3000}' || c == '\U{FEFF}'
  }

  predicate NoSpace(s: string) {
    forall i :: 0 <= i < |s| ==> !IsSpace(s[i])
  }

  /** A character outside the Basic Multilingual Plane: JavaScript stores it as a surrogate pair. */
  predicate IsAstral(c: char) { c as int >= 0x1_0000 }

  /** U+FE0E and U+FE0F, the text and emoji presentation selectors. */
  predicate IsPresentationSelector(c: char) { c == '\U{FE0E}' || c == '\U{FE0F}' }

  /** `s.length` in JavaScript: the number of UTF-16 code units. */
  function Utf16Length(s: string): (n: nat)
    ensures |s| <= n <= 2 * |s|
  {
    if s == [] then 0 else (if IsAstral(s[0]) then 2 else 1) + Utf16Length(s[1..])
  }

  /** The number of surrogate pairs in the UTF-16 form of `s`. */
  function SurrogatePairs(s: string): (n: nat)
    ensures n <= |s|
  {
    if s == [] then 0 else (if IsAstral(s[0]) then 1 else 0) + SurrogatePairs(s[1..])
  }

  /** The number of presentation selectors in `s`. */
  function Selectors(s: string): (n: nat)
    ensures n <= |s|
  {
    if s == [] then 0 else (if IsPresentationSelector(s[0]) then 1 else 0) + Selectors(s[1..])
  }

  /** Every surrogate pair is one character: the code units exceed the characters by the pairs. */
  lemma {:induction false} Utf16LengthPairs(s: string)
    ensures Utf16Length(s) == |s| + SurrogatePairs(s)
  {
    if s != [] {
      Utf16LengthPairs(s[1..]);
    }
  }

  /**
   * The count `isLength` of validator.js compares with its bounds: the
   * UTF-16 code units, less one per surrogate pair and one per
   * presentation selector. It never exceeds the number of characters,
   * which never exceeds the schema's `length`.
   */
  function ValidatorLength(s: string): (n: nat)
    ensures n + Selectors(s) == |s|
    ensures n <= |s| <= Utf16Length(s)
  {
    Utf16LengthPairs(s);
    Utf16Length(s) - SurrogatePairs(s) - Selectors(s)
  }

  /** Without astral characters and presentation selectors, all three counts agree. */
  lemma {:induction false} PlainLengths(s: string)
    requires forall i :: 0 <= i < |s| ==> !IsAstral(s[i]) && !IsPresentationSelector(s[i])
    ensures ValidatorLength(s) == |s| == Utf16Length(s)
  {
    if s != [] {
      PlainLengths(s[1..]);
      Utf16LengthPairs(s);
      Utf16LengthPairs(s[1..]);
    }
  }

  predicate IsDigit(c: char) { '0' <= c <= '9' }

  predicate IsUpper(c: char) { 'A' <= c <= 'Z' }

  /** The `\w` class of a JavaScript regular expression without the `u` flag. */
  predicate IsWordChar(c: char) {
    IsDigit(c) || IsUpper(c) || ('a' <= c <= 'z') || c == '_'
  }

  predicate AllDigits(s: string) {
    forall i :: 0 <= i < |s| ==> IsDigit(s[i])
  }

  /** Index of the first character at or after `i` that is not white space, or `|s|`. */
  function SkipSpace(s: string, i: nat): (k: nat)
    requires i <= |s|
    ensures i <= k <= |s|
    ensures forall j :: i <= j < k ==> IsSpace(s[j])
    ensures k == |s| || !IsSpace(s[k])
    decreases |s| - i
  {
    if i < |s| && IsSpace(s[i]) then SkipSpace(s, i + 1) else i
  }

  /** Index just past the last character before `j` (and not before `lo`) that is not white space, or `lo`. */
  function SkipSpaceBack(s: string, lo: nat, j: nat): (k: nat)
    requires lo <= j <= |s|
    ensures lo <= k <= j
    ensures forall i :: k <= i < j ==> IsSpace(s[i])
    ensures k == lo || !IsSpace(s[k - 1])
    decreases j
  {
    if lo < j && IsSpace(s[j - 1]) then SkipSpaceBack(s, lo, j - 1) else j
  }

  /** `String.prototype.trim`: the schema setter `trim: true` and the validator sanitizer `.trim()`. */
  function Trim(s: string): (r: string)
    ensures |r| <= |s|
    ensures r == [] || (!IsSpace(r[0]) && !IsSpace(r[|r| - 1]))
  {
    var a := SkipSpace(s, 0);
    s[a..SkipSpaceBack(s, a, |s|)]
  }

  lemma {:induction false} SkipSpaceAt(s: string, i: nat, a: nat)
    requires i <= a <= |s|
    requires forall j :: i <= j < a ==> IsSpace(s[j])
    requires a == |s| || !IsSpace(s[a])
    ensures SkipSpace(s, i) == a
    decreases a - i
  {
    if i < a {
      SkipSpaceAt(s, i + 1, a);
    }
  }

  lemma {:induction false} SkipSpaceBackAt(s: string, lo: nat, j: nat, b: nat)
    requires lo <= b <= j <= |s|
    requires forall i :: b <= i < j ==> IsSpace(s[i])
    requires b == lo || !IsSpace(s[b - 1])
    ensures SkipSpaceBack(s, lo, j) == b
    decreases j - b
  {
    if b < j {
      SkipSpaceBackAt(s, lo, j - 1, b);
    }
  }

  /**
   * `trim` keeps exactly the middle of a string that is white space before
   * `a` and from `b` on, and neither starts nor ends with white space
   * between them.
   */
  lemma TrimCharacterised(s: string, a: nat, b: nat)
    requires a <= b <= |s|
    requires forall i :: 0 <= i < a ==> IsSpace(s[i])
    requires forall i :: b <= i < |s| ==> IsSpace(s[i])
    requires a == b || (!IsSpace(s[a]) && !IsSpace(s[b - 1]))
    ensures Trim(s) == s[a..b]
  {
    if a < b {
      SkipSpaceAt(s, 0, a);
      SkipSpaceBackAt(s, a, |s|, b);
    } else {
      SkipSpaceAt(s, 0, |s|);
    }
  }

  lemma TrimOfUnpadded(s: string)
    requires s == [] || (!IsSpace(s[0]) && !IsSpace(s[|s| - 1]))
    ensures Trim(s) == s
  {
    TrimCharacterised(s, 0, |s|);
  }

  /** Trimming twice is trimming once, so the validator's trim and the schema's trim agree. */
  lemma TrimIdempotent(s: string)
    ensures Trim(Trim(s)) == Trim(s)
  {
    TrimOfUnpadded(Trim(s));
  }

  /** A string without white space is left alone by `trim`. */
  lemma TrimNoSpace(s: string)
    requires NoSpace(s)
    ensures Trim(s) == s
  {
    TrimOfUnpadded(s);
  }

  /** ASCII upper case to lower case; every other character is kept. */
  function Lower(c: char): (r: char)
    ensures !IsUpper(r)
    ensures IsUpper(c) ==> r as int == c as int + 32
    ensures !IsUpper(c) ==> r == c
  {
    if IsUpper(c) then (c as int + 32) as char else c
  }

  predicate IsLowerCase(s: string) {
    forall i :: 0 <= i < |s| ==> !IsUpper(s[i])
  }

  /** `String.prototype.toLowerCase`, restricted to the ASCII letters. */
  function ToLower(s: string): (r: string)
    ensures |r| == |s| && IsLowerCase(r)
    ensures forall i :: 0 <= i < |s| && !IsUpper(s[i]) ==> r[i] == s[i]
  {
    seq(|s|, i requires 0 <= i < |s| => Lower(s[i]))
  }

  lemma ToLowerIdempotent(s: string)
    ensures ToLower(ToLower(s)) == ToLower(s)
  {
  }

  lemma ToLowerOfLowerCase(s: string)
    requires IsLowerCase(s)
    ensures ToLower(s) == s
  {
  }

  lemma LowerKeepsSpace(c: char)
    ensures IsSpace(Lower(c)) <==> IsSpace(c)
  {
  }

  /**
   * The schema setters `lowercase` and `trim` commute, so the order in which
   * Mongoose applies them does not change the stored email.
   */
  lemma TrimToLowerCommute(s: string)
    ensures Trim(ToLower(s)) == ToLower(Trim(s))
  {
    var t := ToLower(s);
    var a := SkipSpace(s, 0);
    var b := SkipSpaceBack(s, a, |s|);
    ToLowerSpaces(s);
    TrimCharacterised(t, a, b);
    ToLowerSlice(s, a, b);
  }

  /** Lower-casing keeps every white-space position and every non-space one. */
  lemma ToLowerSpaces(s: string)
    ensures forall i :: 0 <= i < |s| ==> (IsSpace(ToLower(s)[i]) <==> IsSpace(s[i]))
  {
    forall i | 0 <= i < |s|
      ensures IsSpace(ToLower(s)[i]) <==> IsSpace(s[i])
    {
      LowerKeepsSpace(s[i]);
    }
  }

  lemma ToLowerSlice(s: string, a: nat, b: nat)
    requires a <= b <= |s|
    ensures ToLower(s)[a..b] == ToLower(s[a..b])
  {
  }

  lemma LowerCaseTrim(s: string)
    requires IsLowerCase(s)
    ensures IsLowerCase(Trim(s))
  {
    var a := SkipSpace(s, 0);
    var t := s[a..SkipSpaceBack(s, a, |s|)];
    assert Trim(s) == t;
    forall i | 0 <= i < |t|
      ensures !IsUpper(t[i])
    {
      assert t[i] == s[a + i];
    }
  }

  /** `s.startsWith(p)`. */
  predicate StartsWith(s: string, p: string) {
    |p| <= |s| && s[..|p|] == p
  }

  /** The index of the first `c` in `s`, or `|s|` when there is none. */
  function IndexOf(s: string, c: char): (k: nat)
    ensures k <= |s|
    ensures c !in s[..k]
    ensures k < |s| ==> s[k] == c
  {
    if |s| == 0 then 0
    else if s[0] == c then 0
    else 1 + IndexOf(s[1..], c)
  }

  /** Splits `s` at its first `c`. */
  function Cut(s: string, c: char): (r: Option<(string, string)>)
    ensures r.None? <==> c !in s
    ensures r.Some? ==> s == r.value.0 + [c] + r.value.1 && c !in r.value.0
  {
    var k := IndexOf(s, c);
    if k == |s| then None
    else
      assert s == s[..k] + [c] + s[k + 1..];
      Some((s[..k], s[k + 1..]))
  }

  /** Cutting undoes joining with a separator that the first part does not contain. */
  lemma CutJoined(a: string, c: char, b: string)
    requires c !in a
    ensures Cut(a + [c] + b, c) == Some((a, b))
  {
    var s := a + [c] + b;
    var r := Cut(s, c);
    assert c in s by { assert s[|a|] == c; }
    var a', b' := r.value.0, r.value.1;
    assert forall i :: 0 <= i < |a| ==> s[i] == a[i];
    assert s[|a|] == c;
    assert a' == s[..|a|] == a;
    assert b' == s[|a| + 1..] == b;
  }

  function DigitChar(d: nat): (c: char)
    requires d < 10
    ensures IsDigit(c)
  {
    ('0' as int + d) as char
  }

  function DigitValue(c: char): (d: nat)
    requires IsDigit(c)
    ensures d < 10 && DigitChar(d) == c
  {
    c as int - '0' as int
  }

  /** `String(n)` for a non-negative integer: its shortest decimal numeral. */
  function Decimal(n: nat): (r: string)
    ensures 0 < |r| && AllDigits(r)
    ensures |r| > 1 ==> r[0] != '0'
  {
    if n < 10 then [DigitChar(n)] else Decimal(n / 10) + [DigitChar(n % 10)]
  }

  /** The number a digit string denotes. */
  function Value(s: string): nat
    requires AllDigits(s)
  {
    if |s| == 0 then 0 else Value(s[..|s| - 1]) * 10 + DigitValue(s[|s| - 1])
  }

  /** Reads a non-empty digit string; anything else is not a number. */
  function ParseDecimal(s: string): (r: Option<nat>)
    ensures r.Some? <==> 0 < |s| && AllDigits(s)
  {
    if 0 < |s| && AllDigits(s) then Some(Value(s)) else None
  }

  lemma {:induction false} ValueOfDecimal(n: nat)
    ensures Value(Decimal(n)) == n
  {
    if n >= 10 {
      var d := Decimal(n / 10);
      var r := Decimal(n);
      assert r[..|r| - 1] == d;
      ValueOfDecimal(n / 10);
    }
  }

  /** Rendering a number and reading it back gives the number. */
  lemma DecimalRoundTrip(n: nat)
    ensures ParseDecimal(Decimal(n)) == Some(n)
  {
    ValueOfDecimal(n);
  }

  /** Distinct numbers render differently. */
  lemma DecimalInjective(m: nat, n: nat)
    requires Decimal(m) == Decimal(n)
    ensures m == n
  {
    ValueOfDecimal(m);
    ValueOfDecimal(n);
  }

  /** `xs.join(sep)`. */
  function Join(xs: seq<string>, sep: string): (r: string)
    ensures xs == [] ==> r == []
    ensures |xs| == 1 ==> r == xs[0]
  {
    if |xs| == 0 then []
    else if |xs| == 1 then xs[0]
    else xs[0] + sep + Join(xs[1..], sep)
  }
}
